=== FILE: README.md ===
# Team-collab task board client — a Dafny model

This project models the client-side state of the team-collab front end, a React/Redux
single-page application. Teams, projects and tasks live on a server. The client keeps:

- the tasks of each project;
- the signed-in user's credentials;
- dashboard statistics, chat messages and the project list.

On top of that state it decides four things:

- what a Kanban board shows: a role filter, a "my tasks first" sort and three status
  columns;
- whether a dragged card may be moved;
- which server push events reach the store;
- which tabs, panels and buttons each role gets.

The model has one module per source file of the core:

| module | file | what it holds |
|---|---|---|
| `Entities` | shared | Value shapes of the TypeScript types, with JavaScript's `undefined`, `null`, truthiness and `String(...)` coercion made explicit. |
| `Seqs` | shared | `Array.prototype.filter` and the stable two-class sort, with their lemmas. |
| `TaskSlice` | `src/store/task.slice.ts` | The per-project task map: the `TaskStore` class and the pure reducer `Reduce`. |
| `AuthSlice` | `src/store/auth.slice.ts` | Credentials and the persisted token: `AuthStore` and `WithCredentials`/`LoggedOut`. |
| `DashboardSlice` | `src/store/dashboard.slice.ts` | The statistics of the three roles, plus the shared loading and error fields. |
| `ChatSlice` | `src/store/chat.slice.ts` | Chat messages and their fetch status. |
| `ProjectSlice` | `src/store/project.slice.ts` | The project list and its fetch status. |
| `Board` | `src/pages/common/ProjectBoard.tsx` | The board's derivations, `onDragEnd`, the socket handlers, the create/delete/edit commands and the role flags. |
| `AppLayout` | `src/components/layout/AppLayout.tsx` | The header's tab table and the tab lookup. |
| `DashboardTabs` | `src/components/dashboard/DashboardTabs.tsx` | The dashboard's tab strip, panels and create buttons. |
| `TeamOverview` | `src/pages/common/TeamOverview.tsx` | Per-member task statistics, the member list and the invite dialog. |
| `ManagerTasks` | `src/pages/manager/ManagerTasks.tsx` | The team tasks page: manager branch, assignee filter and counts. |

Each Redux slice is a class whose fields are the slice's state. Its reducers are methods
that update those fields in place. Each method is proved equal to a pure transition
function (`State() == Reduce(old(State()), action)`), and the slice's properties are
lemmas about that function and about `ReduceAll`, its fold over a sequence of actions.

The loops in the pages are methods with loop invariants, specified against pure
functions:

- `fetchTaskStats` against `Tally` and `CountsOf`;
- the invite loop against `Planned`;
- the member branch of the tasks page against `Seqs.Filter` and `AllTasks`;
- `onDragEnd` against `FindInColumns`.

HTTP replies are parameters of type `Response<T>`, which is either `Ok(body)` or `Err`. A
failed request is handled by the source's `catch`.

### Behaviour as written

The model follows the code. Where the code does something other than what one might
expect, the model keeps the code's behaviour and a lemma states it:

- `addTask` never looks for an existing id. A create response followed by the server's
  rebroadcast of the same task leaves two copies (`TaskSlice.AddTwiceDuplicates`). No
  upsert is modelled.
- `deleteTask` on a project with no list creates an empty list for it
  (`TaskSlice.DeleteOnAbsentProjectCreatesList`).
- `updateTask` and `moveTask.fulfilled` on a project with no list write into a temporary
  array that is thrown away, so the store is unchanged.
- The board's "assigned to me" test compares with `===` on properties that may be
  `undefined`. A user record without an `email` therefore treats every populated assignee
  without an `email` as its own (`Board.IsMineMatchesUndefinedEmail`). A bare-string
  assignee counts as the user's whenever the user's `id` or `email` is missing
  (`Board.IsMineBareId`).
- On the team tasks page, a user record without an `id` stringifies to `"undefined"`, as
  does a task with no assignee. Such a user is shown every unassigned task
  (`ManagerTasks.MissingIdMatchesUnassigned`).
- The Create Task button is hidden only for `MEMBER` and `ADMIN`. Any other role value
  shows it. For the three declared roles this is exactly `MANAGER`
  (`DashboardTabs.ShowCreateTask`).
- The statistics map of the team overview is keyed by JavaScript property-key coercion of
  `task.assignedTo`. A populated user object is filed under `"[object Object]"`, not
  under its id (`TeamOverview.StatsKey`, `TeamOverview.PopulatedCountsForNoMember`).
- The create response and the server's rebroadcast of the same task both reach the open
  board, which then shows the task twice (`Board.CreateThenPushDuplicates`).
- An assignee `email` of `null` is not `undefined`: a user record without an `email` does
  not claim such an assignee by email (`Board.IsMineNullEmail`).
- A failed edit on a project whose team object has no `_id` still refetches, with an
  undefined team id (`Board.RefetchWithUndefinedTeam`).

## Model

| member | source | states |
|---|---|---|
| Entities.OrNull | src/store/auth.slice.ts:15 | `x \|\| null` on an optional string: the result is present exactly when the input is truthy, and is then the input. |
| Entities.StatusOf | src/pages/common/ProjectBoard.tsx:167 | "todo", "in-progress" and "done" read as `Todo`, `InProgress` and `Done`; any other text is kept, under its own name, as an unknown status. |
| Entities.Prop | src/pages/common/ProjectBoard.tsx:141-142 | `user?.key` is the value stored under the key when there is a user that has the key, and undefined otherwise. |
| Entities.OrEmpty | src/pages/common/TeamOverview.tsx:130 | `data \|\| []`: a missing body reads as the empty list, a present one as itself. |
| Entities.IndexOfId | src/store/task.slice.ts:55 | `findIndex` by `_id`: the first position holding the id, or -1 exactly when no entry holds it. |
| Entities.CountId | src/store/task.slice.ts:49-50 | The number of entries carrying an id is zero exactly when `findIndex` finds none. |
| Seqs.Filter | src/pages/common/ProjectBoard.tsx:126-136 | `Array.prototype.filter`: the result is no longer than the input, and holds exactly the input's elements that pass the test. |
| Seqs.Partition | src/pages/common/ProjectBoard.tsx:139-155 | The two-class stable sort used by the board and by the team member list: a permutation of the input with every element that passes the test before every one that does not. |
| TaskSlice.Replaced | src/store/task.slice.ts:54-56 | `list[idx] = t`: same length; the first slot with `t`'s id holds `t`; every other slot is unchanged; no slot with the id means no change. |
| TaskSlice.Merged | src/store/task.slice.ts:78-81 | Replace or push: `t` is in the result and is what `findIndex` finds. The length grows by one only when the id was absent. Every old slot is kept unless it held `t`'s id. |
| TaskSlice.Reduce | src/store/task.slice.ts:47-82 | Every reducer case leaves every project other than the one it names as it was, and only the fetch cases change the status. |
| TaskSlice.AddPrepends | src/store/task.slice.ts:47-51 | `addTask` puts the task at index 0 in front of the old list, or of `[]` when the key is absent; the length grows by exactly one. |
| TaskSlice.AddTwiceDuplicates | src/store/task.slice.ts:49-50 | Adding the same task twice leaves two more entries with its id than before, which is a different store from adding it once. |
| TaskSlice.UpdateReplacesInPlace | src/store/task.slice.ts:52-57 | A found id: that slot is replaced, the length is kept and every other slot is unchanged. A missing id or missing project: the store is unchanged. |
| TaskSlice.ReplacedIdempotent | src/store/task.slice.ts:55-56 | Replacing the same task twice in a list is the same as once. |
| TaskSlice.UpdateIdempotent | src/store/task.slice.ts:52-57 | Two identical `updateTask` actions give the same store as one. |
| TaskSlice.DeleteRemovesEveryCopy | src/store/task.slice.ts:58-61 | After `deleteTask` no entry of the project has the id. |
| TaskSlice.DeleteKeepsOthers | src/store/task.slice.ts:60 | Every entry with another id keeps its number of copies. |
| TaskSlice.DeleteIdempotent | src/store/task.slice.ts:58-61 | A second identical `deleteTask` changes nothing. |
| TaskSlice.DeleteKeepsOrder | src/store/task.slice.ts:60 | However the project's list is split into a front and a back, the list after `deleteTask` is the kept entries of the front followed by the kept entries of the back, so the entries kept stay in their relative order. |
| TaskSlice.DeleteOnAbsentProjectCreatesList | src/store/task.slice.ts:58-61 | `deleteTask` on a project with no list leaves an empty list under its key and changes nothing else. |
| TaskSlice.FetchCases | src/store/task.slice.ts:65-74 | Fulfilled replaces the project's list wholesale and sets idle; pending sets loading; rejected sets failed; nothing else changes. |
| TaskSlice.MoveReplacesOrAppends | src/store/task.slice.ts:75-82 | No list for the project: the store is unchanged. A present id: the same as `updateTask`. Otherwise the task is appended at the end. |
| TaskSlice.MoveResponseAndPushCommute | src/store/task.slice.ts:52-57 | The move response and the `task:moved` rebroadcast, which is applied as `updateTask`, give the same store in either order. |
| TaskSlice.MergedAbsorbsReplaced | src/store/task.slice.ts:55-56 | On one list, replacing `t` after the replace-or-push of `t`, or before it, gives the replace-or-push result. |
| TaskSlice.OtherProjectsUntouched | src/store/task.slice.ts:47-82 | Over any sequence of actions none of which names project q, q's list, and whether it exists, stay as they were. |
| TaskSlice.TaskStore.constructor | src/store/task.slice.ts:43-45 | The store starts with no lists and status idle. |
| TaskSlice.TaskStore.AddTask | src/store/task.slice.ts:47-51 | The in-place reducer yields `Reduce` of the old state with this action. |
| TaskSlice.TaskStore.UpdateTask | src/store/task.slice.ts:52-57 | The in-place reducer, writing through the draft array or into a discarded one, yields `Reduce` of the old state with this action. |
| TaskSlice.TaskStore.DeleteTask | src/store/task.slice.ts:58-61 | The in-place reducer yields `Reduce` of the old state with this action. |
| TaskSlice.TaskStore.FetchPending | src/store/task.slice.ts:65-67 | The in-place reducer yields `Reduce` of the old state with this action. |
| TaskSlice.TaskStore.FetchFulfilled | src/store/task.slice.ts:68-71 | The in-place reducer yields `Reduce` of the old state with this action. |
| TaskSlice.TaskStore.FetchRejected | src/store/task.slice.ts:72-74 | The in-place reducer yields `Reduce` of the old state with this action. |
| TaskSlice.TaskStore.MoveFulfilled | src/store/task.slice.ts:75-82 | The in-place reducer yields `Reduce` of the old state with this action. |
| TaskSlice.TaskStore.Dispatch | src/store/task.slice.ts:43-84 | Routing any action, including the move lifecycle actions that have no case, yields `Reduce` of the old state. |
| Board.BoardTasks | src/pages/common/ProjectBoard.tsx:37 | Without a route id the board has no tasks. With one, it has that project's list, or `[]` when the store has no list for it. |
| Board.AssignedToId | src/pages/common/ProjectBoard.tsx:126-136 | A missing or `null` assignee never passes. A bare id equal to the user's id passes. A populated assignee passes exactly when its `_id` is that id, whatever its `email`. |
| Board.Visible | src/pages/common/ProjectBoard.tsx:126-136 | For MEMBER with a truthy user id, a task is shown exactly when it is in the list and assigned to that id, by string or by object `_id`. Every other role sees the list unchanged. |
| Board.VisibleCount | src/pages/common/ProjectBoard.tsx:126-136 | In a MEMBER's view, a task assigned to the member appears as many times as in the store's list, and any other task does not appear. |
| Board.VisibleKeepsOrder | src/pages/common/ProjectBoard.tsx:126-136 | The view of two lists joined is the view of the first followed by the view of the second, so the tasks shown keep the store's order. |
| Board.IsMine | src/pages/common/ProjectBoard.tsx:140-147 | An assignee that is not truthy is never "mine". A populated assignee whose `_id` equals the user's id, or whose `email` equals the user's email, always is. One whose `_id` and `email` are both `null` never is. |
| Board.IsMineForFullUser | src/pages/common/ProjectBoard.tsx:140-147 | For a user with both id and email, "mine" means a populated assignee whose `_id` or `email` matches. |
| Board.IsMineMatchesUndefinedEmail | src/pages/common/ProjectBoard.tsx:140-147 | A user without an email counts another user's assignee whose `email` is missing (`undefined`, not `null`) as "mine". |
| Board.IsMineBareId | src/pages/common/ProjectBoard.tsx:140-147 | A bare-string assignee counts as "mine", whoever it names, exactly when the user lacks an id or an email. |
| Board.IsMineNullEmail | src/pages/common/ProjectBoard.tsx:140-147 | For a user without an email, an assignee whose `email` is `null` is "mine" only when its `_id` is the user's id, because `null` is not `undefined`. |
| Board.SortedTasks | src/pages/common/ProjectBoard.tsx:139-155 | The sort is a permutation, and the user's tasks all come before the others. |
| Board.SortIsStable | src/pages/common/ProjectBoard.tsx:139-155 | Within the user's tasks, and within the others, the original order is kept. |
| Board.Grouped | src/pages/common/ProjectBoard.tsx:157-161 | Three columns; every card in a column is a sorted task with that column's status. |
| Board.GroupingPartitions | src/pages/common/ProjectBoard.tsx:157-161 | Each copy of a task with a column status lands in exactly one column; a task with another status lands in none. |
| Board.GroupingKeepsOrder | src/pages/common/ProjectBoard.tsx:157-161 | Each column follows the sorted order: grouping distributes over concatenation. |
| Board.GroupedSingle | src/pages/common/ProjectBoard.tsx:157-161 | A single card appears only in its own status column. |
| Board.FetchThenUpdate | src/store/task.slice.ts:52-57 | Fetching [A, B, C] and then updating B leaves [A, B', C]. |
| Board.SortKeepsUnassigned | src/pages/common/ProjectBoard.tsx:139-155 | With no assignee on any card, the sort is the identity. |
| Board.ColumnOfThree | src/pages/common/ProjectBoard.tsx:157-161 | A column of three cards keeps, in order, exactly those of them with its status. |
| Board.OnePerColumn | src/pages/common/ProjectBoard.tsx:157-161 | Cards with statuses todo, in progress and done fill one column each. |
| Board.UpdateMovesCardAcrossColumns | src/pages/common/ProjectBoard.tsx:37-161 | Worked case: after a fetch and an update of B to in progress, a manager's board shows [A, B', C] and the columns [[A], [B'], [C]]. |
| Board.FindInColumns | src/pages/common/ProjectBoard.tsx:172-181 | The card found has the dragged id and sits in some column; "not found" means no column holds the id. |
| Board.FindInColumnsIsFirst | src/pages/common/ProjectBoard.tsx:172-181 | The card found is the first card with the id in the first column, in column order, that holds the id. |
| Board.IsNoOpDrop | src/pages/common/ProjectBoard.tsx:165-168 | A drop that is acted on has a destination and a route id. A drop into another column is always acted on. |
| Board.DragAllowed | src/pages/common/ProjectBoard.tsx:171-187 | A drop is allowed only if the first column holding the id has, at the first card with that id, a card that is the user's. A card on no column is never allowed. |
| Board.DragEnd | src/pages/common/ProjectBoard.tsx:163-198 | Ignored exactly for a missing destination, a missing route id, or a drop on the same place. Refused exactly when the card is not found or is not the user's. No move exactly when there is no team id. A move carries the team id, the card id and the destination column's status, and nothing about the index. |
| Board.ColumnHoldsTask | src/pages/common/ProjectBoard.tsx:157-161 | Every sorted task with a column status is in that column. |
| Board.FoundCardIsInView | src/pages/common/ProjectBoard.tsx:171-181 | A card found while dragging is a task of the sorted list with a column status; none is found exactly when no such task has the id. |
| Board.PushAction | src/pages/common/ProjectBoard.tsx:94-111 | Created, updated and moved events are dispatched exactly when the task's project is the viewed one: created as `addTask` for that project, updated and moved as `updateTask`. A delete is dispatched, as `deleteTask` on the viewed project, whenever a project is viewed. |
| Board.StalePushIgnored | src/pages/common/ProjectBoard.tsx:94-108 | A late created, updated or moved event for another project leaves the store unchanged. |
| Board.PushTouchesOnlyViewedProject | src/pages/common/ProjectBoard.tsx:94-111 | Any push event leaves every project other than the viewed one as it was. |
| Board.CreateThenPushDuplicates | src/pages/common/ProjectBoard.tsx:94-98 | The create response and the `task:created` rebroadcast of the same task leave two more entries with its id in the open project. |
| Board.HandlePush | src/pages/common/ProjectBoard.tsx:94-111 | The socket handler updates the store to `AfterPush` of its old state. |
| Board.IsBlank | src/pages/common/ProjectBoard.tsx:214 | The empty title is blank. A blank title starts with a character `trim()` strips and the rest is blank. A title with any other character is not blank. |
| Board.CreateDispatch | src/pages/common/ProjectBoard.tsx:213-234 | `addTask` is dispatched exactly for a non-blank title, a route id and a successful response, and it carries the server's task. |
| Board.DeleteDispatch | src/pages/common/ProjectBoard.tsx:236-246 | `deleteTask` is dispatched exactly when there is a route id and the server confirmed the delete. |
| Board.EditDispatch | src/pages/common/ProjectBoard.tsx:263-288 | Nothing happens without an edited task or with a blank title. Otherwise a successful reply is dispatched as `updateTask` of the server's task. A failure refetches the project exactly when the route id and the project's `teamId` reference are truthy, and does nothing else. A string reference is sent as is. A team object is always truthy, and its `_id` is sent, undefined when missing. |
| Board.RefetchWithUndefinedTeam | src/pages/common/ProjectBoard.tsx:280-285 | A failed edit on a project whose team object has no `_id` refetches with an undefined team id. |
| Board.Permissions | src/pages/common/ProjectBoard.tsx:297-299 | Delete is exactly ADMIN, and exactly "create and assign". MANAGER only creates. MEMBER only assigns. Any other role gets nothing. |
| AuthSlice.Initial | src/store/auth.slice.ts:11-16 | The initial token is the persisted one, or null when that is missing or empty; everything else is null. |
| AuthSlice.MergeUser | src/store/auth.slice.ts:25 | `{ ...current, ...patch }`: the keys of both, with the patch's values winning and the other current values kept; with no current user, the patch. |
| AuthSlice.WithCredentials | src/store/auth.slice.ts:22-37 | A user payload is merged over the current user; a null or absent one changes nothing. Role and team id change only when their key is present, falsy becoming null. A present token is set, falsy becoming null, and mirrored into storage. |
| AuthSlice.LoggedOut | src/store/auth.slice.ts:38-46 | Logout nulls user, role, team id and token, and removes the persisted token. |
| AuthSlice.TokenAlwaysMirrorsStorage | src/store/auth.slice.ts:11-46 | From start-up, after any actions, the token equals the persisted copy, with a falsy copy read as null. |
| AuthSlice.TokenMirrorsStorageKept | src/store/auth.slice.ts:22-46 | Both reducers preserve the agreement between the token and its persisted copy. |
| AuthSlice.LogoutIdempotent | src/store/auth.slice.ts:38-46 | Logging out twice is logging out once. |
| AuthSlice.EmptyCredentialsChangeNothing | src/store/auth.slice.ts:23-28 | A payload without keys leaves the state unchanged. |
| AuthSlice.SignInMerges | src/store/auth.slice.ts:25-35 | Two successive sign-in payloads leave a user with every key of both, the second winning, and the token of the first. |
| AuthSlice.AuthStore.constructor | src/store/auth.slice.ts:11-16 | The store starts in `Initial` of the persisted token. |
| AuthSlice.AuthStore.SetCredentials | src/store/auth.slice.ts:22-37 | The conditional in-place assignments yield `WithCredentials` of the old state. |
| AuthSlice.AuthStore.Logout | src/store/auth.slice.ts:38-46 | The in-place assignments yield `LoggedOut`. |
| DashboardSlice.Reduce | src/store/dashboard.slice.ts:82-133 | Pending sets loading, clears the error and keeps the stats. Rejected stops loading, sets the error to the payload and keeps the stats. Each fulfilled case stops loading and writes its payload into its own stats field and no other. Clear nulls the stats and the error and keeps loading. |
| DashboardSlice.ErrorNeverWhileLoading | src/store/dashboard.slice.ts:33-133 | From the initial state, after any actions, an error is never shown together with loading. |
| DashboardSlice.ErrorOnlyWhenIdleKept | src/store/dashboard.slice.ts:82-133 | Every case preserves "error implies not loading". |
| DashboardSlice.ReduceAllSnoc | src/store/dashboard.slice.ts:78-135 | Applying one more action to a folded state is folding the longer sequence. |
| DashboardSlice.AdminStatsFollowResponses | src/store/dashboard.slice.ts:82-103 | The admin stats shown are those of the latest admin response since the latest clear, otherwise the earlier value. |
| DashboardSlice.DashboardStore.constructor | src/store/dashboard.slice.ts:33-39 | The store starts with three null stats, not loading and no error. |
| DashboardSlice.DashboardStore.ClearDashboard | src/store/dashboard.slice.ts:82-87 | The in-place assignments yield `Reduce` with `Clear`. |
| DashboardSlice.DashboardStore.StatsPending | src/store/dashboard.slice.ts:92-95 | The pending case, shared by the three requests (also lines 107-110 and 122-125), yields `Reduce`. |
| DashboardSlice.DashboardStore.AdminStatsFulfilled | src/store/dashboard.slice.ts:96-99 | The in-place assignments yield `Reduce`. |
| DashboardSlice.DashboardStore.ManagerStatsFulfilled | src/store/dashboard.slice.ts:111-114 | The in-place assignments yield `Reduce`. |
| DashboardSlice.DashboardStore.MemberStatsFulfilled | src/store/dashboard.slice.ts:126-129 | The in-place assignments yield `Reduce`. |
| DashboardSlice.DashboardStore.StatsRejected | src/store/dashboard.slice.ts:100-103 | The rejected case, shared by the three requests (also lines 115-118 and 130-133), yields `Reduce`. |
| ChatSlice.Reduce | src/store/chat.slice.ts:26-50 | Append adds the message at the end and keeps the status. A fulfilled fetch replaces the messages and sets idle. Pending sets loading and rejected sets failed, both keeping the messages. Only fetch actions change the status. |
| ChatSlice.AppendAtEnd | src/store/chat.slice.ts:35-37 | The length grows by one, the earlier messages are unchanged and the new one is last. |
| ChatSlice.AppendTwiceTwoCopies | src/store/chat.slice.ts:36 | The same message appended twice is there two more times. |
| ChatSlice.SendsChangeNothing | src/store/chat.slice.ts:26-50 | Any sequence of `sendMessage` lifecycle actions leaves the chat state unchanged. |
| ChatSlice.Appends | src/store/chat.slice.ts:35-37 | One append action per message, in order. |
| ChatSlice.AppendsFirst | src/store/chat.slice.ts:35-37 | Appending several messages starts by appending the first of them. |
| ChatSlice.AppendsAccumulate | src/store/chat.slice.ts:35-37 | Appending messages one at a time ends with the old list followed by them, in arrival order. |
| ChatSlice.ChatStore.constructor | src/store/chat.slice.ts:16-19 | Empty messages, status idle. |
| ChatSlice.ChatStore.AppendMessage | src/store/chat.slice.ts:35-37 | The in-place push yields `Reduce`. |
| ChatSlice.ChatStore.FetchPending | src/store/chat.slice.ts:41-43 | The in-place assignment yields `Reduce`. |
| ChatSlice.ChatStore.FetchFulfilled | src/store/chat.slice.ts:44-47 | The in-place assignments yield `Reduce`. |
| ChatSlice.ChatStore.FetchRejected | src/store/chat.slice.ts:48-50 | The in-place assignment yields `Reduce`. |
| ProjectSlice.Reduce | src/store/project.slice.ts:31-40 | Fulfilled replaces the projects with the payload; pending and rejected keep them. The status is loading, idle or failed accordingly. |
| ProjectSlice.ProjectsAreLatestResponse | src/store/project.slice.ts:31-40 | After any actions, the list is the latest fulfilled payload, or the earlier list when none was fulfilled. |
| ProjectSlice.ProjectStore.constructor | src/store/project.slice.ts:15-18 | An empty list, status idle. |
| ProjectSlice.ProjectStore.FetchPending | src/store/project.slice.ts:31-33 | The in-place assignment yields `Reduce`. |
| ProjectSlice.ProjectStore.FetchFulfilled | src/store/project.slice.ts:34-37 | The in-place assignments yield `Reduce`. |
| ProjectSlice.ProjectStore.FetchRejected | src/store/project.slice.ts:38-40 | The in-place assignment yields `Reduce`. |
| AppLayout.Tabs | src/components/layout/AppLayout.tsx:32-56 | Four tabs with distinct values, dashboard first and chat last. In between, ADMIN gets Teams then Projects on the admin paths. MANAGER gets My Projects then the manager Tasks tab. Every other role, none included, gets My Projects then My Tasks. An admin path appears exactly for ADMIN. |
| AppLayout.Navigate | src/components/layout/AppLayout.tsx:73-76 | `find` by value: the path of the first tab with the value; nowhere exactly when no tab has it. |
| AppLayout.NavigateMatchesTable | src/components/layout/AppLayout.tsx:32-76 | In every role's table, a value leads to a path exactly when a tab pairs them. |
| AppLayout.CommonTabs | src/components/layout/AppLayout.tsx:32-76 | Dashboard and chat are reachable for every role. |
| DashboardTabs.TabList | src/components/dashboard/DashboardTabs.tsx:23-34 | Dashboard first, distinct, all known panels, always in the order dashboard, projects, teams, tasks. Projects exactly for ADMIN and MANAGER; teams exactly for the three roles; tasks exactly for MANAGER and MEMBER. |
| DashboardTabs.ShowCreateProject | src/components/dashboard/DashboardTabs.tsx:71-79 | Shown exactly for ADMIN and MANAGER. |
| DashboardTabs.ShowCreateTask | src/components/dashboard/DashboardTabs.tsx:81-86 | For the three declared roles the button is shown exactly for MANAGER; any role value outside them shows it. |
| DashboardTabs.PanelRendered | src/components/dashboard/DashboardTabs.tsx:90-110 | A panel is rendered exactly when its tab is listed; the dashboard panel always is. |
| DashboardTabs.TabsAndPanelsAgree | src/components/dashboard/DashboardTabs.tsx:23-110 | For every tab name, rendered and listed coincide. |
| TeamOverview.StatsKey | src/pages/common/TeamOverview.tsx:139-143 | A task is filed under no key exactly when its `assignedTo` is falsy. A truthy bare id is filed under itself; every populated object under "[object Object]". |
| TeamOverview.Tally | src/pages/common/TeamOverview.tsx:142-152 | The counters under any key satisfy total = completed + pending. |
| TeamOverview.TallyCounts | src/pages/common/TeamOverview.tsx:138-153 | total is the number of tasks filed under the key; completed counts those of them whose status is done; pending counts all the others. |
| TeamOverview.TallyZero | src/pages/common/TeamOverview.tsx:142-144 | A key has a non-zero total exactly when some task is filed under it. |
| TeamOverview.UnassignedCountsForNobody | src/pages/common/TeamOverview.tsx:139-140 | A task with a falsy `assignedTo` changes no counters. |
| TeamOverview.PopulatedCountsForNoMember | src/pages/common/TeamOverview.tsx:137-152 | A task with a populated assignee changes no counters of any key other than "[object Object]". |
| TeamOverview.TallySnoc | src/pages/common/TeamOverview.tsx:138-153 | Counting one more task moves only its own key's counters, by one. |
| TeamOverview.CountStep | src/pages/common/TeamOverview.tsx:138-153 | The counting loop's invariant survives one more task. |
| TeamOverview.CountTasks | src/pages/common/TeamOverview.tsx:138-153 | The `forEach` callback, run over one project's tasks, extends a map holding the tallies of the earlier tasks to the tallies of all of them. |
| TeamOverview.FetchTaskStats | src/pages/common/TeamOverview.tsx:122-161 | No team id, or any failed request: the shown stats stay. Otherwise the new map has an entry exactly for each key some task is filed under, holding its tally over all projects' tasks in order. |
| TeamOverview.DisplayedIsTally | src/pages/common/TeamOverview.tsx:747 | Each listed member shows their tally; a member with no entry shows zeros; total = completed + pending. |
| TeamOverview.DisplayedMembers | src/pages/common/TeamOverview.tsx:738-745 | The listed members are exactly the non-admins, as a permutation of that filter, with managers first. |
| TeamOverview.DisplayedKeepsOrder | src/pages/common/TeamOverview.tsx:740-745 | Managers, and the others, each keep the order in which they were received. |
| TeamOverview.Lookup | src/pages/common/TeamOverview.tsx:232 | `selectedUsers[id]` is undefined exactly when no entry has the key, and otherwise is that entry's flag. |
| TeamOverview.Put | src/pages/common/TeamOverview.tsx:266-269 | `{ ...prev, [id]: v }`: every existing key keeps its place. At most one entry is added, at the end, holding the id and v. |
| TeamOverview.PutFinds | src/pages/common/TeamOverview.tsx:266-269 | After the update the id reads v. |
| TeamOverview.PutKeepsOther | src/pages/common/TeamOverview.tsx:266-269 | After the update every other key reads as before. |
| TeamOverview.UniqueKeysTail | src/pages/common/TeamOverview.tsx:266-269 | Without its first entry, a record with distinct keys still has distinct keys, none equal to the dropped one. |
| TeamOverview.PutKeepsKeysUnique | src/pages/common/TeamOverview.tsx:266-269 | The record update keeps keys distinct. |
| TeamOverview.ToggleUser | src/pages/common/TeamOverview.tsx:263-274 | Flips the user's flag and leaves other flags alone. It clears the manager exactly when the user was the manager and was selected before. It preserves the invariant that the manager is selected. |
| TeamOverview.ToggleManager | src/pages/common/TeamOverview.tsx:276-290 | On the current manager it clears the choice and nothing else. On another user it makes them the single manager and selects them, leaving other flags alone. It preserves the invariant. |
| TeamOverview.ClicksKeepConsistent | src/pages/common/TeamOverview.tsx:263-290 | After any sequence of clicks, the manager, if any, is a selected user. |
| TeamOverview.FindUser | src/pages/common/TeamOverview.tsx:233 | A user found for an id carries that id. |
| TeamOverview.FindUserSpec | src/pages/common/TeamOverview.tsx:233 | `find` by `_id`: a found user is available and has the id; none exactly when no available user has it. |
| TeamOverview.InviteFor | src/pages/common/TeamOverview.tsx:232-243 | A key gets an invite exactly when its flag is set and a user with its id is available. The invite carries that user's email, and its role is MANAGER exactly when the key is the chosen manager, MEMBER otherwise. |
| TeamOverview.Planned | src/pages/common/TeamOverview.tsx:231-245 | At most one invite per key. |
| TeamOverview.PlannedSound | src/pages/common/TeamOverview.tsx:231-245 | Every invite comes from a key that is selected and whose user is found. |
| TeamOverview.PlannedComplete | src/pages/common/TeamOverview.tsx:231-245 | Every key that is selected and whose user is found gets its invite. |
| TeamOverview.InviteRoles | src/pages/common/TeamOverview.tsx:236 | Roles are MANAGER or MEMBER; MANAGER only for the selected manager's own selected key. |
| TeamOverview.AtMostOneManagerInvite | src/pages/common/TeamOverview.tsx:231-245 | At most one user is invited as MANAGER. |
| TeamOverview.PlannedPrefix | src/pages/common/TeamOverview.tsx:231-245 | The invites of a prefix of the keys are a prefix of the full plan. |
| TeamOverview.PlannedStep | src/pages/common/TeamOverview.tsx:231-245 | One more key adds its own invite, if it has one, after the invites sent so far. |
| TeamOverview.SendInvites | src/pages/common/TeamOverview.tsx:231-245 | If the request numbered `failsAt` fails, it is the last one sent, and the invites sent are a prefix of the plan. Otherwise the whole plan is sent and the request numbered `failsAt`, if any, was never reached. |
| TeamOverview.InviteExistingUsers | src/pages/common/TeamOverview.tsx:225-261 | No team id or no keys: nothing is sent and the state is kept. If the k-th request fails, exactly the first k+1 planned invites are sent and the selection is kept. Otherwise the whole plan is sent, in key order, and the selection is reset. |
| ManagerTasks.AssigneeString | src/pages/manager/ManagerTasks.tsx:60 | `String(t.assignedTo?._id || t.assignedTo)`: a missing assignee gives "undefined", `null` gives "null", a bare id gives itself, a populated assignee gives its truthy `_id`, and otherwise "[object Object]". |
| ManagerTasks.Mine | src/pages/manager/ManagerTasks.tsx:60 | A bare id equal to the user's id is kept. A missing assignee is kept exactly for a user without an id or with id "undefined". A `null` assignee is kept only for the id "null". |
| ManagerTasks.MineForUser | src/pages/manager/ManagerTasks.tsx:60 | For an ordinary user id, a task is kept exactly when it is assigned by bare id, or by an object carrying a truthy matching `_id`. |
| ManagerTasks.MissingIdMatchesUnassigned | src/pages/manager/ManagerTasks.tsx:60 | A user without an id keeps every unassigned task; a user with an id does not. |
| ManagerTasks.CountsFor | src/pages/manager/ManagerTasks.tsx:64-72 | The total is the number of tasks, and no column count exceeds it. A list holding a to-do task has a non-zero to-do count. |
| ManagerTasks.CountsAddUp | src/pages/manager/ManagerTasks.tsx:63-72 | todo + in progress + done never exceeds total, and equals it when every task has a column status. |
| ManagerTasks.CollectedStep | src/pages/manager/ManagerTasks.tsx:57-61 | A successful reply for one more project appends that project's tasks kept by the filter. |
| ManagerTasks.CollectedIsFilter | src/pages/manager/ManagerTasks.tsx:57-61 | Filtering project by project and concatenating is the same as filtering all the projects' tasks at once. |
| ManagerTasks.CollectAssigned | src/pages/manager/ManagerTasks.tsx:57-61 | The loop fails exactly when some task request fails. Otherwise it yields each project's kept tasks, in project order. |
| ManagerTasks.Load | src/pages/manager/ManagerTasks.tsx:42-80 | No team id: unchanged. MANAGER: the reply's tasks and counts verbatim, or unchanged on failure. Otherwise any failure leaves the page unchanged, and success gives the projects' tasks kept by the filter, in project order, with counts computed from them. |

## Left out

- Firebase sign-in and sign-out, the socket connection and its reconnection, and every axios request. Their replies are parameters (`Response<T>`), or they are left out.
- The thunk bodies and `rejectWithValue` messages: a rejected stats request carries its message as given.
- Async ordering and races between responses, push events and React re-renders. The model takes actions one at a time, in a given order.
- AuthSlice.WithCredentials: `localStorage` is a field that always accepts writes. A storage exception, which the source swallows, would leave the persisted copy stale. `TokenAlwaysMirrorsStorage` holds only without such failures.
- TeamOverview.ToggleUser: the handler reads `selectedManager` and `selectedUsers` from the render in which it runs. The model applies one click per render, so stale reads across batched clicks are not modelled.
- TeamOverview: `selectedUsers` keeps insertion order. JavaScript lists integer-like keys first in `Object.keys`, which is not modelled; user ids are not integer-like.
- TeamOverview: the statistics map is a plain map. Prototype keys such as `"constructor"` in `statsMap` are not modelled.
- The `loading`, `creating` and `inviting` flags, toasts, dialog open/close state, the refresh of members after inviting, and the success messages. They change only what is rendered.
- TeamOverview's other handlers: invite by email, fetching members, pending invitations and team data. They are request plumbing around the dialog modelled here.
- AppLayout's logout handler: it calls Firebase `signOut` and then always dispatches `logout`, which is `AuthSlice.AuthStore.Logout`. Also left out is the user name and initial shown in the header.
- ChatPanel's socket subscription, the chat page and the admin pages. These are callers of the modelled slices.
- `Message.senderId` is typed `any` in the source and is modelled as a string.
- `Populated.refId` and `Populated.email` are taken to be strings when present. Other value types of these properties are not modelled.
- `project.teamId` is taken to be a string or an object. Other value types are not modelled.
- Percentages and `completionRate` are JavaScript floats and are carried, never computed.
- `String.prototype.trim` is modelled by the set of characters it strips. Only "blank or not" is used.

=== FILE: app_layout.dfy ===
/** The header navigation of the application layout: the role's tab table and the tab lookup on selection. */
module AppLayout {
  import opened Entities

  datatype Tab = Tab(value: string, caption: string, path: string)

  /** The paths that lead to the administrator pages. */
  predicate IsAdminPath(path: string) {
    path == "/admin/teams" || path == "/admin/projects"
  }

  /** The tab table for the signed-in role (`None` while no role is known). */
  function Tabs(role: Option<string>): (r: seq<Tab>)
    ensures |r| == 4
    ensures r[0] == Tab("dashboard", "Dashboard", "/dashboard")
    ensures r[3] == Tab("chat", "Chat", "/chat")
    ensures forall i, j :: 0 <= i < j < |r| ==> r[i].value != r[j].value
    ensures (exists i :: 0 <= i < |r| && IsAdminPath(r[i].path)) <==> role == Some(ADMIN)
    ensures role == Some(ADMIN) ==>
      r[1] == Tab("teams", "Teams", "/admin/teams") && r[2] == Tab("projects", "Projects", "/admin/projects")
    ensures role == Some(MANAGER) ==>
      r[1] == Tab("projects", "My Projects", "/projects") && r[2] == Tab("tasks", "Tasks", "/manager/tasks")
    ensures role != Some(ADMIN) && role != Some(MANAGER) ==>
      r[1] == Tab("projects", "My Projects", "/projects") && r[2] == Tab("tasks", "My Tasks", "/member/tasks")
    ensures Tab("tasks", "Tasks", "/manager/tasks") in r <==> role == Some(MANAGER)
    ensures Tab("tasks", "My Tasks", "/member/tasks") in r <==> role != Some(ADMIN) && role != Some(MANAGER)
  {
    if role == Some(ADMIN) then
      var admin :=
        [ Tab("dashboard", "Dashboard", "/dashboard"),
          Tab("teams", "Teams", "/admin/teams"),
          Tab("projects", "Projects", "/admin/projects"),
          Tab("chat", "Chat", "/chat") ];
      assert IsAdminPath(admin[1].path);
      admin
    else if role == Some(MANAGER) then
      [ Tab("dashboard", "Dashboard", "/dashboard"),
        Tab("projects", "My Projects", "/projects"),
        Tab("tasks", "Tasks", "/manager/tasks"),
        Tab("chat", "Chat", "/chat") ]
    else
      [ Tab("dashboard", "Dashboard", "/dashboard"),
        Tab("projects", "My Projects", "/projects"),
        Tab("tasks", "My Tasks", "/member/tasks"),
        Tab("chat", "Chat", "/chat") ]
  }

  /** The path of the first tab whose value is `v`, if any: where selecting `v` navigates. */
  function Navigate(tabs: seq<Tab>, v: string): (r: Option<string>)
    ensures r.None? <==> forall i :: 0 <= i < |tabs| ==> tabs[i].value != v
    ensures r.Some? ==> exists i :: (0 <= i < |tabs| && tabs[i].value == v && tabs[i].path == r.value
                                     && forall j :: 0 <= j < i ==> tabs[j].value != v)
  {
    if tabs == [] then None
    else if tabs[0].value == v then Some(tabs[0].path)
    else Navigate(tabs[1..], v)
  }

  /**
   * In every role's table a selected value leads to exactly the path of the tab carrying it,
   * and a value with no tab leads nowhere.
   */
  lemma NavigateMatchesTable(role: Option<string>, v: string, path: string)
    ensures Navigate(Tabs(role), v) == Some(path) <==>
      exists i :: 0 <= i < |Tabs(role)| && Tabs(role)[i].value == v && Tabs(role)[i].path == path
  {
  }

  /** Dashboard and chat are reachable from every role's header. */
  lemma CommonTabs(role: Option<string>)
    ensures Navigate(Tabs(role), "dashboard") == Some("/dashboard")
    ensures Navigate(Tabs(role), "chat") == Some("/chat")
  {
    NavigateMatchesTable(role, "chat", "/chat");
  }
}

=== FILE: auth_slice.dfy ===
/**
 * The auth slice: the signed-in user record, role, team id and bearer token, with the
 * browser's persisted copy of the token (`localStorage['fb_token']`) kept as a field.
 */
module AuthSlice {
  import opened Entities

  datatype Credentials = Credentials(
    user: Field<UserRecord>,
    role: Field<string>,
    teamId: Field<string>,
    token: Field<string>)

  datatype AuthState = AuthState(
    user: Option<UserRecord>,
    role: Option<string>,
    teamId: Option<string>,
    token: Option<string>,
    storedToken: Option<string>)   // localStorage 'fb_token'

  /** The store's initial value, read from whatever the browser had persisted. */
  function Initial(persisted: Option<string>): (s: AuthState)
    ensures s.token == OrNull(persisted) && s.storedToken == persisted
    ensures s.user.None? && s.role.None? && s.teamId.None?
  {
    AuthState(None, None, None, OrNull(persisted), persisted)
  }

  /** `x || null` on a payload key that is present. */
  function StoredValue(f: Field<string>): Option<string>
    requires !f.Undefined?
  {
    if f.Given? then OrNull(Some(f.value)) else None
  }

  /** `{ ...current, ...patch }`, or the patch itself when there is no current user. */
  function MergeUser(current: Option<UserRecord>, patch: UserRecord): (r: UserRecord)
    ensures r.Keys == patch.Keys + (if current.Some? then current.value.Keys else {})
    ensures forall k :: k in patch ==> r[k] == patch[k]
    ensures current.Some? ==> forall k :: k in current.value && k !in patch ==> r[k] == current.value[k]
  {
    if current.Some? then current.value + patch else patch
  }

  /**
   * `setCredentials`: a user payload is merged over the current user (payload keys win,
   * including keys given as `undefined`); role, team id and token change only when their
   * key is present, a falsy value being stored as `null`; a present token is mirrored into
   * the persisted copy, which a falsy token removes.
   */
  function WithCredentials(s: AuthState, p: Credentials): (r: AuthState)
    ensures p.user.Given? ==> r.user == Some(MergeUser(s.user, p.user.value))
    ensures !p.user.Given? ==> r.user == s.user
    ensures r.role == if p.role.Undefined? then s.role else StoredValue(p.role)
    ensures r.teamId == if p.teamId.Undefined? then s.teamId else StoredValue(p.teamId)
    ensures p.token.Undefined? ==> r.token == s.token && r.storedToken == s.storedToken
    ensures !p.token.Undefined? ==> r.token == StoredValue(p.token) && r.storedToken == r.token
  {
    var user := if p.user.Given? then Some(MergeUser(s.user, p.user.value)) else s.user;
    var role := if p.role.Undefined? then s.role else StoredValue(p.role);
    var teamId := if p.teamId.Undefined? then s.teamId else StoredValue(p.teamId);
    if p.token.Undefined? then AuthState(user, role, teamId, s.token, s.storedToken)
    else
      var token := StoredValue(p.token);
      AuthState(user, role, teamId, token, token)
  }

  /** `logout`: everything back to `null` and the persisted token removed. */
  function LoggedOut(s: AuthState): (r: AuthState)
    ensures r.user.None? && r.role.None? && r.teamId.None? && r.token.None? && r.storedToken.None?
  {
    AuthState(None, None, None, None, None)
  }

  datatype Action = SetCredentialsAction(payload: Credentials) | LogoutAction

  function Reduce(s: AuthState, a: Action): AuthState {
    match a
    case SetCredentialsAction(p) => WithCredentials(s, p)
    case LogoutAction => LoggedOut(s)
  }

  function ReduceAll(s: AuthState, actions: seq<Action>): AuthState
    decreases |actions|
  {
    if actions == [] then s else ReduceAll(Reduce(s, actions[0]), actions[1..])
  }

  /** The in-memory token is the persisted one, with a falsy value read as `null`. */
  predicate TokenMirrorsStorage(s: AuthState) {
    s.token == OrNull(s.storedToken)
  }

  /**
   * The token and its persisted copy never drift apart: they agree at start-up and every
   * `setCredentials` and `logout` keeps them in agreement.
   */
  lemma {:induction false} TokenAlwaysMirrorsStorage(persisted: Option<string>, actions: seq<Action>)
    ensures TokenMirrorsStorage(ReduceAll(Initial(persisted), actions))
  {
    TokenMirrorsStorageKept(Initial(persisted), actions);
  }

  lemma {:induction false} TokenMirrorsStorageKept(s: AuthState, actions: seq<Action>)
    requires TokenMirrorsStorage(s)
    ensures TokenMirrorsStorage(ReduceAll(s, actions))
    decreases |actions|
  {
    if actions != [] {
      var next := Reduce(s, actions[0]);
      if actions[0].SetCredentialsAction? && !actions[0].payload.token.Undefined? {
        assert next.storedToken == next.token;
        assert OrNull(next.token) == next.token;
      }
      TokenMirrorsStorageKept(next, actions[1..]);
    }
  }

  /** Illustration: `logout` is idempotent. */
  lemma LogoutIdempotent(s: AuthState)
    ensures LoggedOut(LoggedOut(s)) == LoggedOut(s)
  {
  }

  /** Illustration: a payload with no keys changes nothing. */
  lemma EmptyCredentialsChangeNothing(s: AuthState)
    ensures WithCredentials(s, Credentials(Undefined, Undefined, Undefined, Undefined)) == s
  {
  }

  /**
   * What the sign-in flow relies on: after the first `setCredentials` (user and token) and the
   * second (user with server id, role and team id), every key of both user payloads is
   * present, the second payload's value winning, and the token from the first survives.
   */
  lemma SignInMerges(s: AuthState, first: UserRecord, token: string, second: UserRecord,
                     role: Field<string>, teamId: Field<string>)
    ensures var r := WithCredentials(WithCredentials(s, Credentials(Given(first), Undefined, Undefined, Given(token))),
                                    Credentials(Given(second), role, teamId, Undefined));
      && r.user.Some?
      && r.user.value.Keys >= first.Keys + second.Keys
      && (forall k :: k in second ==> r.user.value[k] == second[k])
      && (forall k :: k in first && k !in second ==> r.user.value[k] == first[k])
      && r.token == OrNull(Some(token))
  {
  }

  /** The slice as held in the store, with its reducers updating fields in place. */
  class AuthStore {
    var user: Option<UserRecord>
    var role: Option<string>
    var teamId: Option<string>
    var token: Option<string>
    var storedToken: Option<string>

    function State(): AuthState
      reads this
    {
      AuthState(user, role, teamId, token, storedToken)
    }

    constructor (persisted: Option<string>)
      ensures State() == Initial(persisted)
    {
      user, role, teamId := None, None, None;
      token := if TruthyOpt(persisted) then persisted else None;
      storedToken := persisted;
    }

    method SetCredentials(p: Credentials)
      modifies this
      ensures State() == WithCredentials(old(State()), p)
    {
      ghost var target := WithCredentials(State(), p);
      if p.user.Given? {
        user := if user.Some? then Some(user.value + p.user.value) else Some(p.user.value);
      }
      assert user == target.user;
      if !p.role.Undefined? {
        role := if p.role.Given? && Truthy(p.role.value) then Some(p.role.value) else None;
      }
      assert role == target.role;
      if !p.teamId.Undefined? {
        teamId := if p.teamId.Given? && Truthy(p.teamId.value) then Some(p.teamId.value) else None;
      }
      assert teamId == target.teamId;
      if !p.token.Undefined? {
        token := if p.token.Given? && Truthy(p.token.value) then Some(p.token.value) else None;
        if p.token.Given? && Truthy(p.token.value) {
          storedToken := Some(p.token.value);
        } else {
          storedToken := None;
        }
      }
    }

    method Logout()
      modifies this
      ensures State() == LoggedOut(old(State()))
    {
      user := None;
      role := None;
      teamId := None;
      token := None;
      storedToken := None;
    }
  }
}

=== FILE: board.dfy ===
/**
 * The project board page: what it shows (visibility filter, "my tasks first" sort, the three
 * status columns), the decision taken when a card is dropped, which push events reach the
 * task store, what the create/delete/edit commands dispatch, and the role flags.
 */
module Board {
  import opened Entities
  import Seqs
  import TaskSlice

  // ---------------------------------------------------------------- what is shown

  /** `id ? s.tasks.byProject[id] || [] : []` */
  function BoardTasks(m: TaskSlice.ByProject, routeId: Option<string>): (r: seq<Task>)
    ensures !TruthyOpt(routeId) ==> r == []
    ensures TruthyOpt(routeId) && routeId.value in m ==> r == m[routeId.value]
    ensures TruthyOpt(routeId) && routeId.value !in m ==> r == []
  {
    if TruthyOpt(routeId) then TaskSlice.ListOf(m, routeId.value) else []
  }

  /** The MEMBER view filter applies only to role MEMBER with a truthy `user.id`. */
  predicate IsMemberView(role: Option<string>, user: Option<UserRecord>) {
    role == Some(MEMBER) && TruthyOpt(Prop(user, "id"))
  }

  /** The filter's test: a string `assignedTo` equal to the id, or an object whose `_id` is. */
  function AssignedToId(uid: string): (r: Task -> bool)
    ensures forall t: Task :: t.assignedTo.Unset? || t.assignedTo.NullRef? ==> !r(t)
    ensures forall t: Task :: t.assignedTo == ById(uid) ==> r(t)
    ensures forall t: Task :: t.assignedTo.Populated? ==> (r(t) <==> t.assignedTo.refId == Given(uid))
  {
    (t: Task) =>
      match t.assignedTo
      case ById(s) => s == uid
      case Populated(refId, _) => refId == Given(uid)
      case _ => false
  }

  /** `filtered`: a MEMBER sees exactly the tasks assigned to them; every other role sees all. */
  function Visible(role: Option<string>, user: Option<UserRecord>, tasks: seq<Task>): (r: seq<Task>)
    ensures !IsMemberView(role, user) ==> r == tasks
    ensures IsMemberView(role, user) ==>
      forall t :: t in r <==> t in tasks && AssignedToId(Prop(user, "id").value)(t)
  {
    if IsMemberView(role, user) then Seqs.Filter(tasks, AssignedToId(Prop(user, "id").value))
    else tasks
  }

  /** A member's view keeps every copy of each assigned task and drops every copy of the rest. */
  lemma VisibleCount(role: Option<string>, user: Option<UserRecord>, tasks: seq<Task>, t: Task)
    requires IsMemberView(role, user)
    ensures multiset(Visible(role, user, tasks))[t] ==
      if AssignedToId(Prop(user, "id").value)(t) then multiset(tasks)[t] else 0
  {
    Seqs.FilterCount(tasks, AssignedToId(Prop(user, "id").value), t);
  }

  /** The view distributes over `+`, so the tasks shown keep the store's relative order. */
  lemma VisibleKeepsOrder(role: Option<string>, user: Option<UserRecord>, front: seq<Task>, back: seq<Task>)
    ensures Visible(role, user, front + back) == Visible(role, user, front) + Visible(role, user, back)
  {
    if IsMemberView(role, user) {
      Seqs.FilterConcat(front, back, AssignedToId(Prop(user, "id").value));
    }
  }

  /**
   * The sort's "assigned to the user" test, with JavaScript's `===` on possibly-undefined
   * properties: `assignedTo._id === user?.id || assignedTo.email === user?.email` behind a
   * truthiness guard. A bare string has neither property, so both sides are undefined.
   */
  function IsMine(user: Option<UserRecord>): (r: Task -> bool)
    ensures forall t: Task :: !AssigneeTruthy(t.assignedTo) ==> !r(t)
    ensures forall t: Task ::
      (t.assignedTo.Populated? && t.assignedTo.refId.Given? && Prop(user, "id") == Some(t.assignedTo.refId.value)) ==> r(t)
    ensures forall t: Task ::
      (t.assignedTo.Populated? && t.assignedTo.email.Given? && Prop(user, "email") == Some(t.assignedTo.email.value)) ==> r(t)
    ensures forall t: Task :: t.assignedTo.Populated? && t.assignedTo.refId.Null? && t.assignedTo.email.Null? ==> !r(t)
  {
    (t: Task) =>
      match t.assignedTo
      case Unset => false
      case NullRef => false
      case ById(s) => Truthy(s) && (Prop(user, "id").None? || Prop(user, "email").None?)
      case Populated(refId, email) => StrictEq(refId, Prop(user, "id")) || StrictEq(email, Prop(user, "email"))
  }

  /** For a user whose id and email are both defined, "mine" means a populated assignee matching either. */
  lemma IsMineForFullUser(user: Option<UserRecord>, t: Task)
    requires Prop(user, "id").Some? && Prop(user, "email").Some?
    ensures IsMine(user)(t) <==>
      t.assignedTo.Populated? &&
      (t.assignedTo.refId == Given(Prop(user, "id").value) || t.assignedTo.email == Given(Prop(user, "email").value))
  {
  }

  /**
   * As written, a user record without an `email` treats every populated assignee without an
   * `email` as "mine", whoever it is; the same card then passes the drag check.
   */
  lemma IsMineMatchesUndefinedEmail(user: Option<UserRecord>, otherId: string)
    requires Prop(user, "email").None?
    ensures IsMine(user)(Task("t", "", None, Todo, 0, "p", Populated(Given(otherId), Undefined)))
  {
  }

  /**
   * `null` is not `undefined`: for a user record without an `email`, a populated assignee whose
   * `email` is `null` is "mine" only through its `_id`.
   */
  lemma IsMineNullEmail(user: Option<UserRecord>, otherId: string)
    requires Prop(user, "email").None?
    ensures IsMine(user)(Task("t", "", None, Todo, 0, "p", Populated(Given(otherId), Null)))
        <==> Prop(user, "id") == Some(otherId)
  {
  }

  /**
   * As written, a bare-string assignee has neither `_id` nor `email`, so it counts as the
   * user's, whoever it names, exactly when the user record lacks an `id` or an `email`.
   */
  lemma IsMineBareId(user: Option<UserRecord>, t: Task)
    requires t.assignedTo.ById? && Truthy(t.assignedTo.id)
    ensures IsMine(user)(t) <==> Prop(user, "id").None? || Prop(user, "email").None?
  {
  }

  /** `sortedTasks`: the stable sort that puts the user's tasks first. */
  function SortedTasks(user: Option<UserRecord>, filtered: seq<Task>): (r: seq<Task>)
    ensures multiset(r) == multiset(filtered)
    ensures forall i, j :: 0 <= i < j < |r| && IsMine(user)(r[j]) ==> IsMine(user)(r[i])
  {
    Seqs.Partition(filtered, IsMine(user))
  }

  /** Within the user's tasks and within the others, the sort keeps the original order. */
  lemma SortIsStable(user: Option<UserRecord>, filtered: seq<Task>)
    ensures Seqs.Filter(SortedTasks(user, filtered), IsMine(user)) == Seqs.Filter(filtered, IsMine(user))
    ensures Seqs.Filter(SortedTasks(user, filtered), Seqs.Not(IsMine(user)))
         == Seqs.Filter(filtered, Seqs.Not(IsMine(user)))
  {
    Seqs.PartitionIsStable(filtered, IsMine(user));
  }

  /** The board's columns, in the order `Object.values(grouped)` yields them. */
  const Columns: seq<Status> := [Todo, InProgress, Done]

  /** `grouped`: one filter of the sorted list per column. */
  function Grouped(sorted: seq<Task>): (g: seq<seq<Task>>)
    ensures |g| == 3
    ensures forall c, t :: 0 <= c < 3 && t in g[c] ==> t in sorted && t.status == Columns[c]
  {
    [Seqs.Filter(sorted, HasStatus(Todo)), Seqs.Filter(sorted, HasStatus(InProgress)), Seqs.Filter(sorted, HasStatus(Done))]
  }

  /**
   * Grouping is total and disjoint on tasks with a column status: each copy of such a task
   * lands in exactly one column; a task with any other status lands in none.
   */
  lemma GroupingPartitions(sorted: seq<Task>, t: Task)
    ensures var g := Grouped(sorted);
      multiset(g[0])[t] + multiset(g[1])[t] + multiset(g[2])[t]
        == if IsColumn(t.status) then multiset(sorted)[t] else 0
  {
    var g := Grouped(sorted);
    Seqs.FilterCount(sorted, HasStatus(Todo), t);
    Seqs.FilterCount(sorted, HasStatus(InProgress), t);
    Seqs.FilterCount(sorted, HasStatus(Done), t);
  }

  /** A column keeps the sorted order: grouping distributes over concatenation. */
  lemma GroupingKeepsOrder(front: seq<Task>, back: seq<Task>, c: nat)
    requires c < 3
    ensures Grouped(front + back)[c] == Grouped(front)[c] + Grouped(back)[c]
  {
    Seqs.FilterConcat(front, back, HasStatus(Columns[c]));
  }

  /** Illustration: a one-card list lands in its own status column and nowhere else. */
  lemma GroupedSingle(t: Task, c: nat)
    requires c < 3
    ensures Grouped([t])[c] == if t.status == Columns[c] then [t] else []
  {
    assert [t][1..] == [];
  }

  /** Illustration, the store side of the worked case below: fetch, then update one card in place. */
  lemma FetchThenUpdate(p: string, a: Task, b: Task, c: Task)
    requires b.projectId == p && a.id != b.id
    ensures var moved := b.(status := InProgress);
      var s := TaskSlice.Reduce(TaskSlice.Reduce(TaskSlice.Initial, TaskSlice.FetchFulfilled(p, [a, b, c])), TaskSlice.Update(moved));
      p in s.byProject && s.byProject[p] == [a, moved, c]
  {
    assert IndexOfId([a, b, c], b.id) == 1;
  }

  /** With no assignee on any card, the sort leaves the list as it is. */
  lemma SortKeepsUnassigned(list: seq<Task>, user: Option<UserRecord>)
    requires forall i :: 0 <= i < |list| ==> list[i].assignedTo.Unset?
    ensures SortedTasks(user, list) == list
  {
    Seqs.FilterDropsAll(list, IsMine(user));
    Seqs.FilterKeepsAll(list, Seqs.Not(IsMine(user)));
  }

  /** A column of three cards keeps, in order, those of the three with its status. */
  lemma ColumnOfThree(x: Task, y: Task, z: Task, st: Status)
    ensures Seqs.Filter([x, y, z], HasStatus(st)) ==
      (if x.status == st then [x] else []) + (if y.status == st then [y] else []) + (if z.status == st then [z] else [])
  {
    var p := HasStatus(st);
    assert [x] == [] + [x];
    Seqs.FilterSnoc([], x, p);
    assert [x, y] == [x] + [y];
    Seqs.FilterSnoc([x], y, p);
    assert [x, y, z] == [x, y] + [z];
    Seqs.FilterSnoc([x, y], z, p);
  }

  /** Illustration: three cards, one per status, are shown one per column. */
  lemma OnePerColumn(x: Task, y: Task, z: Task)
    requires x.status == Todo && y.status == InProgress && z.status == Done
    ensures Grouped([x, y, z]) == [[x], [y], [z]]
  {
    ColumnOfThree(x, y, z, Todo);
    assert [x] + [] + [] == [x];
    ColumnOfThree(x, y, z, InProgress);
    assert [] + [y] + [] == [y];
    ColumnOfThree(x, y, z, Done);
    assert [] + [] + [z] == [z];
  }

  /**
   * Illustration, a worked case: a project's fetch returns A and B to do and C done, then B is updated
   * to in progress; a manager's board shows A, B and C, one per column.
   */
  lemma UpdateMovesCardAcrossColumns(p: string, a: Task, b: Task, c: Task, user: Option<UserRecord>)
    requires Truthy(p) && b.projectId == p && a.id != b.id
    requires a.status == Todo && b.status == Todo && c.status == Done
    requires a.assignedTo.Unset? && b.assignedTo.Unset? && c.assignedTo.Unset?
    ensures var moved := b.(status := InProgress);
      var s := TaskSlice.Reduce(TaskSlice.Reduce(TaskSlice.Initial, TaskSlice.FetchFulfilled(p, [a, b, c])), TaskSlice.Update(moved));
      var shown := Visible(Some(MANAGER), user, BoardTasks(s.byProject, Some(p)));
      shown == [a, moved, c] && Grouped(SortedTasks(user, shown)) == [[a], [moved], [c]]
  {
    var moved := b.(status := InProgress);
    FetchThenUpdate(p, a, b, c);
    SortKeepsUnassigned([a, moved, c], user);
    OnePerColumn(a, moved, c);
  }

  // ---------------------------------------------------------------- drag and drop

  datatype DropLocation = DropLocation(droppableId: string, index: int)

  datatype DropResult = DropResult(destination: Option<DropLocation>, source: DropLocation, draggableId: string)

  /** What `onDragEnd` ends in: nothing, a permission warning, a silent stop, or a move request. */
  datatype DragOutcome =
    | Ignored
    | Refused
    | NoTeam
    | Move(teamId: string, taskId: string, status: Status)

  /** The drop needs no move: no destination, no project in the route, or the card went back to its place. */
  predicate IsNoOpDrop(result: DropResult, routeId: Option<string>)
    ensures !IsNoOpDrop(result, routeId) ==> result.destination.Some? && TruthyOpt(routeId)
    ensures (result.destination.Some? && TruthyOpt(routeId)
             && result.destination.value.droppableId != result.source.droppableId) ==> !IsNoOpDrop(result, routeId)
  {
    || result.destination.None?
    || !TruthyOpt(routeId)
    || (result.destination.value.droppableId == result.source.droppableId
        && result.destination.value.index == result.source.index)
  }

  /** The card `col.find` yields in the first column (in column order) that holds the id. */
  function FindInColumns(cols: seq<seq<Task>>, id: string): (r: Option<Task>)
    ensures r.Some? ==> r.value.id == id && exists c :: 0 <= c < |cols| && r.value in cols[c]
    ensures r.None? ==> forall c, t :: 0 <= c < |cols| && t in cols[c] ==> t.id != id
  {
    if cols == [] then None
    else
      var k := IndexOfId(cols[0], id);
      if k >= 0 then Some(cols[0][k])
      else
        var r := FindInColumns(cols[1..], id);
        assert forall c :: 1 <= c < |cols| ==> cols[c] == cols[1..][c - 1];
        assert forall t :: t in cols[0] ==> t.id != id;
        r
  }

  /** The dragged card is found in the view and passes the "mine" test. */
  predicate DragAllowed(grouped: seq<seq<Task>>, id: string, user: Option<UserRecord>)
    ensures DragAllowed(grouped, id, user) ==>
      exists c: nat :: FirstColumnWith(grouped, id, c) && IsMine(user)(grouped[c][IndexOfId(grouped[c], id)])
    ensures (forall c, t :: 0 <= c < |grouped| && t in grouped[c] ==> t.id != id) ==> !DragAllowed(grouped, id, user)
  {
    FindInColumnsIsFirst(grouped, id);
    var found := FindInColumns(grouped, id);
    found.Some? && IsMine(user)(found.value)
  }

  /**
   * `onDragEnd` up to the dispatch. A move is requested only for a real move of a card the
   * view holds and that is the user's, with a truthy team id; it carries the destination
   * column as the new status and nothing about the destination index.
   */
  method DragEnd(result: DropResult, routeId: Option<string>, grouped: seq<seq<Task>>,
                 user: Option<UserRecord>, teamId: Option<string>) returns (out: DragOutcome)
    ensures out.Ignored? <==> IsNoOpDrop(result, routeId)
    ensures out.Refused? <==> !IsNoOpDrop(result, routeId) && !DragAllowed(grouped, result.draggableId, user)
    ensures out.NoTeam? <==>
      !IsNoOpDrop(result, routeId) && DragAllowed(grouped, result.draggableId, user) && !TruthyOpt(teamId)
    ensures out.Move? ==>
      && result.destination.Some?
      && teamId == Some(out.teamId) && Truthy(out.teamId)
      && out.taskId == result.draggableId
      && out.status == StatusOf(result.destination.value.droppableId)
  {
    if IsNoOpDrop(result, routeId) {
      return Ignored;
    }
    var destCol := result.destination.value.droppableId;
    var assignedToMe := false;
    var c := 0;
    while c < |grouped|
      invariant 0 <= c <= |grouped|
      invariant FindInColumns(grouped, result.draggableId) == FindInColumns(grouped[c..], result.draggableId)
      invariant !assignedToMe
    {
      var k := IndexOfId(grouped[c], result.draggableId);
      if k >= 0 {
        assignedToMe := IsMine(user)(grouped[c][k]);
        break;
      }
      assert grouped[c..][1..] == grouped[c + 1..];
      c := c + 1;
    }
    assert assignedToMe <==> DragAllowed(grouped, result.draggableId, user);
    if !assignedToMe {
      return Refused;
    }
    if !TruthyOpt(teamId) {
      return NoTeam;
    }
    out := Move(teamId.value, result.draggableId, StatusOf(destCol));
  }

  /** Each task of the sorted list with a column status is in that column. */
  lemma ColumnHoldsTask(sorted: seq<Task>, t: Task)
    requires t in sorted
    ensures t.status == Todo ==> t in Grouped(sorted)[0]
    ensures t.status == InProgress ==> t in Grouped(sorted)[1]
    ensures t.status == Done ==> t in Grouped(sorted)[2]
  {
  }

  /** Column `c` holds the id and no column before it does. */
  predicate FirstColumnWith(cols: seq<seq<Task>>, id: string, c: nat) {
    c < |cols| && IndexOfId(cols[c], id) >= 0 && forall c' :: 0 <= c' < c ==> IndexOfId(cols[c'], id) == -1
  }

  /** The card found is the first card with the id in the first column holding one. */
  lemma {:induction false} FindInColumnsIsFirst(cols: seq<seq<Task>>, id: string)
    ensures FindInColumns(cols, id).Some? ==>
      exists c: nat :: FirstColumnWith(cols, id, c) && FindInColumns(cols, id).value == cols[c][IndexOfId(cols[c], id)]
    decreases |cols|
  {
    if cols != [] {
      if IndexOfId(cols[0], id) >= 0 {
        assert FirstColumnWith(cols, id, 0);
      } else if FindInColumns(cols, id).Some? {
        var rest := cols[1..];
        FindInColumnsIsFirst(rest, id);
        var c: nat :| FirstColumnWith(rest, id, c) && FindInColumns(rest, id).value == rest[c][IndexOfId(rest[c], id)];
        assert rest[c] == cols[c + 1];
        forall c' | 0 <= c' < c + 1
          ensures IndexOfId(cols[c'], id) == -1
        {
          if c' > 0 {
            assert cols[c'] == rest[c' - 1];
          }
        }
        assert FirstColumnWith(cols, id, c + 1);
      }
    }
  }

  /** A card found in the grouped view is a task of the sorted list with that id and a column status. */
  lemma FoundCardIsInView(sorted: seq<Task>, id: string)
    ensures var found := FindInColumns(Grouped(sorted), id);
      && (found.Some? ==> found.value in sorted && found.value.id == id && IsColumn(found.value.status))
      && (found.None? <==> forall t :: t in sorted && t.id == id ==> !IsColumn(t.status))
  {
    var g := Grouped(sorted);
    var found := FindInColumns(g, id);
    if found.Some? {
      var c :| 0 <= c < 3 && found.value in g[c];
      assert found.value in sorted && found.value.status == Columns[c];
      assert IsColumn(found.value.status);
    } else {
      forall t | t in sorted && t.id == id
        ensures !IsColumn(t.status)
      {
        ColumnHoldsTask(sorted, t);
      }
    }
  }

  // ---------------------------------------------------------------- push events

  datatype PushEvent =
    | TaskCreated(task: Task)
    | TaskUpdated(task: Task)
    | TaskMoved(task: Task)
    | TaskDeleted(taskId: string)

  /**
   * What the socket handlers dispatch. Created/updated/moved are applied only when the
   * task's project is the one in the route; a delete carries no project and is applied to
   * the viewed project whatever its origin.
   */
  function PushAction(routeId: Option<string>, ev: PushEvent): (r: Option<TaskSlice.Action>)
    ensures r.Some? ==> TaskSlice.Target(r.value) == routeId
    ensures !ev.TaskDeleted? ==> (r.Some? <==> routeId == Some(ev.task.projectId))
    ensures ev.TaskDeleted? ==> (r.Some? <==> TruthyOpt(routeId))
    ensures ev.TaskCreated? && r.Some? ==> r.value == TaskSlice.Add(ev.task.projectId, ev.task)
    ensures (ev.TaskUpdated? || ev.TaskMoved?) && r.Some? ==> r.value == TaskSlice.Update(ev.task)
    ensures ev.TaskDeleted? && r.Some? ==> r.value == TaskSlice.Delete(routeId.value, ev.taskId)
  {
    match ev
    case TaskCreated(t) => if routeId == Some(t.projectId) then Some(TaskSlice.Add(t.projectId, t)) else None
    case TaskUpdated(t) => if routeId == Some(t.projectId) then Some(TaskSlice.Update(t)) else None
    case TaskMoved(t) => if routeId == Some(t.projectId) then Some(TaskSlice.Update(t)) else None
    case TaskDeleted(id) => if TruthyOpt(routeId) then Some(TaskSlice.Delete(routeId.value, id)) else None
  }

  /** The store after a push event reaches the open board. */
  function AfterPush(s: TaskSlice.TaskState, routeId: Option<string>, ev: PushEvent): TaskSlice.TaskState {
    match PushAction(routeId, ev)
    case None => s
    case Some(a) => TaskSlice.Reduce(s, a)
  }

  /**
   * After switching the board from one project to another, a late push for the old
   * project leaves the store as it was, and in particular the new project's list.
   */
  lemma StalePushIgnored(s: TaskSlice.TaskState, viewed: string, ev: PushEvent)
    requires !ev.TaskDeleted? && ev.task.projectId != viewed
    ensures AfterPush(s, Some(viewed), ev) == s
  {
  }

  /** Any push event changes at most the list of the project in the route. */
  lemma PushTouchesOnlyViewedProject(s: TaskSlice.TaskState, routeId: Option<string>, ev: PushEvent, q: string)
    requires routeId != Some(q)
    ensures var r := AfterPush(s, routeId, ev);
      (q in r.byProject <==> q in s.byProject) && (q in s.byProject ==> r.byProject[q] == s.byProject[q])
  {
  }

  /**
   * The create response and the server's `task:created` rebroadcast of the same task both
   * reach the store: the open project ends with two more entries carrying the task's id.
   */
  lemma CreateThenPushDuplicates(s: TaskSlice.TaskState, title: string, routeId: Option<string>, t: Task)
    requires !IsBlank(title) && TruthyOpt(routeId) && t.projectId == routeId.value
    ensures var created := TaskSlice.Reduce(s, CreateDispatch(title, routeId, Ok(t)).value);
      var pushed := AfterPush(created, routeId, TaskCreated(t));
      CountId(TaskSlice.ListOf(pushed.byProject, routeId.value), t.id)
        == CountId(TaskSlice.ListOf(s.byProject, routeId.value), t.id) + 2
  {
    var p := routeId.value;
    var before := TaskSlice.ListOf(s.byProject, p);
    var created := TaskSlice.Reduce(s, TaskSlice.Add(p, t));
    var pushed := TaskSlice.Reduce(created, TaskSlice.Add(p, t));
    assert created.byProject[p] == [t] + before;
    assert pushed.byProject[p] == [t] + ([t] + before);
    assert ([t] + before)[1..] == before;
    assert ([t] + ([t] + before))[1..] == [t] + before;
  }

  /** Socket handlers dispatching into the store. */
  method HandlePush(store: TaskSlice.TaskStore, routeId: Option<string>, ev: PushEvent)
    modifies store
    ensures store.State() == AfterPush(old(store.State()), routeId, ev)
  {
    var a := PushAction(routeId, ev);
    if a.Some? {
      store.Dispatch(a.value);
    }
  }

  // ---------------------------------------------------------------- commands

  /** Characters `String.prototype.trim` strips. */
  predicate IsJsWhitespace(c: char) {
    || c == ' ' || c == '\t' || c == '\n' || c == '\r' || c == '\U{000B}' || c == '\U{000C}'
    || c == '\U{00A0}' || c == '\U{1680}' || ('\U{2000}' <= c <= '\U{200A}')
    || c == '\U{2028}' || c == '\U{2029}' || c == '\U{202F}' || c == '\U{205F}'
    || c == '\U{3000}' || c == '\U{FEFF}'
  }

  /** `!s.trim()` */
  predicate IsBlank(s: string)
    ensures s == [] ==> IsBlank(s)
    ensures IsBlank(s) && |s| > 0 ==> IsJsWhitespace(s[0]) && IsBlank(s[1..])
    ensures (exists i :: 0 <= i < |s| && !IsJsWhitespace(s[i])) ==> !IsBlank(s)
  {
    forall i :: 0 <= i < |s| ==> IsJsWhitespace(s[i])
  }

  /**
   * `handleCreateTask`: no request for a blank title or a missing route id; otherwise the
   * task is added to the store only from a successful response.
   */
  function CreateDispatch(title: string, routeId: Option<string>, response: Response<Task>)
    : (r: Option<TaskSlice.Action>)
    ensures r.Some? <==> !IsBlank(title) && TruthyOpt(routeId) && response.Ok?
    ensures r.Some? ==> r.value == TaskSlice.Add(routeId.value, response.value)
  {
    if IsBlank(title) || !TruthyOpt(routeId) then None
    else if response.Err? then None
    else Some(TaskSlice.Add(routeId.value, response.value))
  }

  /** `handleDeleteTask`: the task leaves the store only after the server confirmed the delete. */
  function DeleteDispatch(routeId: Option<string>, taskId: string, response: Response<()>)
    : (r: Option<TaskSlice.Action>)
    ensures r.Some? <==> TruthyOpt(routeId) && response.Ok?
    ensures r.Some? ==> r.value == TaskSlice.Delete(routeId.value, taskId)
  {
    if !TruthyOpt(routeId) then None
    else if response.Err? then None
    else Some(TaskSlice.Delete(routeId.value, taskId))
  }

  /**
   * `project.teamId` as the project record carries it: a bare team id, or a populated team
   * object whose `_id` may be missing.
   */
  datatype TeamRef = TeamString(id: string) | TeamObject(objectId: Option<string>)

  /** `project?.teamId` as a condition: an object is always truthy, a string when non-empty. */
  predicate TeamRefTruthy(team: Option<TeamRef>) {
    match team
    case None => false
    case Some(TeamString(s)) => Truthy(s)
    case Some(TeamObject(_)) => true
  }

  /** `teamIdToUse`: the object's `_id` (`None` when undefined), or the string itself. */
  function TeamIdToUse(team: TeamRef): Option<string> {
    match team
    case TeamString(s) => Some(s)
    case TeamObject(objectId) => objectId
  }

  /** What a failed or successful edit leads to; a refetch may carry an undefined team id. */
  datatype EditEffect = StoreUpdate(task: Task) | Refetch(teamId: Option<string>, projectId: string)

  /**
   * `handleEditTask`: a successful response is dispatched as `updateTask`; a failure
   * dispatches nothing but a re-fetch of the project, and only when the route id and the
   * project's `teamId` reference are truthy. The re-fetch sends the string reference itself,
   * or the object's `_id`, which may be undefined.
   */
  function EditDispatch(editing: Option<Task>, title: string, response: Response<Task>,
                        routeId: Option<string>, projectTeam: Option<TeamRef>): (r: Option<EditEffect>)
    ensures editing.None? || IsBlank(title) ==> r.None?
    ensures r.Some? && r.value.StoreUpdate? ==> response == Ok(r.value.task)
    ensures r.Some? && r.value.Refetch? ==>
      response.Err? && TruthyOpt(routeId) && routeId == Some(r.value.projectId) && TeamRefTruthy(projectTeam)
    ensures editing.Some? && !IsBlank(title) && response.Ok? ==> r == Some(StoreUpdate(response.value))
    ensures editing.Some? && !IsBlank(title) && response.Err? && TruthyOpt(routeId)
            && projectTeam.Some? && projectTeam.value.TeamString? && Truthy(projectTeam.value.id) ==>
      r == Some(Refetch(Some(projectTeam.value.id), routeId.value))
    ensures editing.Some? && !IsBlank(title) && response.Err? && TruthyOpt(routeId)
            && projectTeam.Some? && projectTeam.value.TeamObject? ==>
      r == Some(Refetch(projectTeam.value.objectId, routeId.value))
  {
    if editing.None? || IsBlank(title) then None
    else if response.Ok? then Some(StoreUpdate(response.value))
    else if TruthyOpt(routeId) && TeamRefTruthy(projectTeam) then
      Some(Refetch(TeamIdToUse(projectTeam.value), routeId.value))
    else None
  }

  /**
   * As written, a failed edit on a project whose team object has no `_id` still refetches,
   * with an undefined team id.
   */
  lemma RefetchWithUndefinedTeam(editing: Task, title: string, routeId: string)
    requires !IsBlank(title) && Truthy(routeId)
    ensures EditDispatch(Some(editing), title, Err, Some(routeId), Some(TeamObject(None)))
         == Some(Refetch(None, routeId))
  {
  }

  // ---------------------------------------------------------------- role flags

  datatype BoardPermissions = BoardPermissions(canCreateTask: bool, canAssignTask: bool, canDeleteTask: bool)

  /**
   * `canCreateTask` (ADMIN, MANAGER), `canAssignTask` (ADMIN, MEMBER), `canDeleteTask` (ADMIN):
   * delete is exactly "both of the others", MANAGER and MEMBER get exactly one of them, and
   * any other role, or none, gets nothing.
   */
  function Permissions(role: Option<string>): (p: BoardPermissions)
    ensures p.canDeleteTask <==> p.canCreateTask && p.canAssignTask
    ensures p.canDeleteTask <==> role == Some(ADMIN)
    ensures p.canCreateTask && !p.canAssignTask <==> role == Some(MANAGER)
    ensures !p.canCreateTask && p.canAssignTask <==> role == Some(MEMBER)
    ensures !p.canCreateTask && !p.canAssignTask <==> role !in {Some(ADMIN), Some(MANAGER), Some(MEMBER)}
  {
    BoardPermissions(
      role == Some(ADMIN) || role == Some(MANAGER),
      role == Some(ADMIN) || role == Some(MEMBER),
      role == Some(ADMIN))
  }
}

=== FILE: chat_slice.dfy ===
/** The chat slice: the open team's messages and the status of their fetch. */
module ChatSlice {
  import opened Entities

  datatype Message = Message(id: string, content: string, senderId: string, createdAt: string)

  datatype ChatState = ChatState(messages: seq<Message>, status: LoadStatus)

  datatype Action =
    | Append(message: Message)                       // appendMessage
    | FetchPending                                    // fetchMessages lifecycle
    | FetchFulfilled(messages: seq<Message>)
    | FetchRejected
    | SendPending                                     // sendMessage lifecycle: no case
    | SendFulfilled(sent: Message)
    | SendRejected

  const Initial := ChatState([], Idle)

  predicate IsSendAction(a: Action) {
    a.SendPending? || a.SendFulfilled? || a.SendRejected?
  }

  function Reduce(s: ChatState, a: Action): (r: ChatState)
    ensures a.Append? ==> r.messages == s.messages + [a.message] && r.status == s.status
    ensures a.FetchFulfilled? ==> r.messages == a.messages && r.status == Idle
    ensures a.FetchPending? || a.FetchRejected? ==> r.messages == s.messages
    ensures a.FetchPending? ==> r.status == Loading
    ensures a.FetchRejected? ==> r.status == Failed
    ensures r.status != s.status ==> a.FetchPending? || a.FetchFulfilled? || a.FetchRejected?
  {
    match a
    case Append(m) => s.(messages := s.messages + [m])
    case FetchPending => s.(status := Loading)
    case FetchFulfilled(ms) => ChatState(ms, Idle)
    case FetchRejected => s.(status := Failed)
    case SendPending => s
    case SendFulfilled(_) => s
    case SendRejected => s
  }

  function ReduceAll(s: ChatState, actions: seq<Action>): ChatState
    decreases |actions|
  {
    if actions == [] then s else ReduceAll(Reduce(s, actions[0]), actions[1..])
  }

  /** `appendMessage` grows the list by one at the end and leaves earlier messages as they were. */
  lemma AppendAtEnd(s: ChatState, m: Message)
    ensures var r := Reduce(s, Append(m)).messages;
      |r| == |s.messages| + 1 && r[..|s.messages|] == s.messages && r[|s.messages|] == m
  {
    assert (s.messages + [m])[..|s.messages|] == s.messages;
  }

  /** No deduplication: the same message appended twice (say, by two socket deliveries) is there twice. */
  lemma AppendTwiceTwoCopies(s: ChatState, m: Message)
    ensures multiset(ReduceAll(s, [Append(m), Append(m)]).messages)[m] == multiset(s.messages)[m] + 2
  {
    var a := Append(m);
    assert [a, a][1..] == [a] && [a][1..] == [];
    var once := Reduce(s, a);
    assert ReduceAll(s, [a, a]) == ReduceAll(once, [a]);
    assert ReduceAll(once, [a]) == ReduceAll(Reduce(once, a), []);
  }

  /** Sending never changes the chat state by itself: it has no reducer case. */
  lemma {:induction false} SendsChangeNothing(s: ChatState, actions: seq<Action>)
    requires forall i :: 0 <= i < |actions| ==> IsSendAction(actions[i])
    ensures ReduceAll(s, actions) == s
    decreases |actions|
  {
    if actions != [] {
      assert Reduce(s, actions[0]) == s;
      SendsChangeNothing(s, actions[1..]);
    }
  }

  /** The actions appending `ms` one by one. */
  function Appends(ms: seq<Message>): (r: seq<Action>)
    ensures |r| == |ms|
    ensures forall i :: 0 <= i < |ms| ==> r[i] == Append(ms[i])
  {
    if ms == [] then [] else [Append(ms[0])] + Appends(ms[1..])
  }

  /** The first append is reduced first. */
  lemma AppendsFirst(s: ChatState, ms: seq<Message>)
    requires ms != []
    ensures ReduceAll(s, Appends(ms)) == ReduceAll(s.(messages := s.messages + [ms[0]]), Appends(ms[1..]))
  {
    var acts := Appends(ms);
    assert acts[0] == Append(ms[0]) && acts[1..] == Appends(ms[1..]);
  }

  /** Appending messages one at a time ends with the old list followed by them, in arrival order. */
  lemma {:induction false} AppendsAccumulate(s: ChatState, ms: seq<Message>)
    ensures ReduceAll(s, Appends(ms)) == s.(messages := s.messages + ms)
    decreases |ms|
  {
    if ms != [] {
      var next := s.(messages := s.messages + [ms[0]]);
      AppendsFirst(s, ms);
      AppendsAccumulate(next, ms[1..]);
      assert next.messages + ms[1..] == s.messages + ms;
    }
  }

  /** The slice in the store. */
  class ChatStore {
    var messages: seq<Message>
    var status: LoadStatus

    function State(): ChatState
      reads this
    {
      ChatState(messages, status)
    }

    constructor ()
      ensures State() == Initial
    {
      messages := [];
      status := Idle;
    }

    method AppendMessage(m: Message)
      modifies this
      ensures State() == Reduce(old(State()), Append(m))
    {
      messages := messages + [m];
    }

    method FetchPending()
      modifies this
      ensures State() == Reduce(old(State()), Action.FetchPending)
    {
      status := Loading;
    }

    method FetchFulfilled(ms: seq<Message>)
      modifies this
      ensures State() == Reduce(old(State()), Action.FetchFulfilled(ms))
    {
      status := Idle;
      messages := ms;
    }

    method FetchRejected()
      modifies this
      ensures State() == Reduce(old(State()), Action.FetchRejected)
    {
      status := Failed;
    }
  }
}

=== FILE: dashboard_slice.dfy ===
/**
 * The dashboard slice: the last statistics fetched for each role, one shared loading flag
 * and one shared error message for the three statistics requests.
 */
module DashboardSlice {
  import opened Entities

  datatype AdminStats = AdminStats(totalTeams: int, totalProjects: int, totalTasks: int)

  datatype ProjectRef = ProjectRef(id: string, name: string)

  datatype ManagerStats = ManagerStats(
    totalManagedProjects: int,
    totalAssignedTasks: int,
    completedTasks: int,
    projects: seq<ProjectRef>)

  /** `completionRate` is a JavaScript number computed by the server; it is only carried here. */
  datatype MemberStats = MemberStats(
    totalTasks: int,
    completedTasks: int,
    pendingTasks: int,
    inProgressTasks: int,
    completionRate: real)

  datatype DashboardState = DashboardState(
    adminStats: Option<AdminStats>,
    managerStats: Option<ManagerStats>,
    memberStats: Option<MemberStats>,
    loading: bool,
    error: Option<string>)

  /** The three statistics requests (`fetchAdminStats`, `fetchManagerStats`, `fetchMemberStats`). */
  datatype StatsRequest = AdminRequest | ManagerRequest | MemberRequest

  datatype Action =
    | Clear                                          // clearDashboard
    | Pending(request: StatsRequest)
    | AdminFulfilled(admin: AdminStats)
    | ManagerFulfilled(manager: ManagerStats)
    | MemberFulfilled(member: MemberStats)
    | Rejected(request: StatsRequest, message: string)

  const Initial := DashboardState(None, None, None, false, None)

  /** The three statistics fields are those of `s`. */
  predicate SameStats(s: DashboardState, r: DashboardState) {
    r.adminStats == s.adminStats && r.managerStats == s.managerStats && r.memberStats == s.memberStats
  }

  function Reduce(s: DashboardState, a: Action): (r: DashboardState)
    ensures a.Pending? ==> r.loading && r.error.None? && SameStats(s, r)
    ensures a.Rejected? ==> !r.loading && r.error == Some(a.message) && SameStats(s, r)
    ensures a.AdminFulfilled? || a.ManagerFulfilled? || a.MemberFulfilled? ==> !r.loading && r.error == s.error
    ensures a.AdminFulfilled? ==> r.adminStats == Some(a.admin)
    ensures a.ManagerFulfilled? ==> r.managerStats == Some(a.manager)
    ensures a.MemberFulfilled? ==> r.memberStats == Some(a.member)
    ensures r.adminStats != s.adminStats ==> a.Clear? || (a.AdminFulfilled? && r.adminStats == Some(a.admin))
    ensures r.managerStats != s.managerStats ==> a.Clear? || (a.ManagerFulfilled? && r.managerStats == Some(a.manager))
    ensures r.memberStats != s.memberStats ==> a.Clear? || (a.MemberFulfilled? && r.memberStats == Some(a.member))
    ensures a.Clear? ==>
      r.adminStats.None? && r.managerStats.None? && r.memberStats.None? && r.error.None? && r.loading == s.loading
  {
    match a
    case Clear => s.(adminStats := None, managerStats := None, memberStats := None, error := None)
    case Pending(_) => s.(loading := true, error := None)
    case AdminFulfilled(x) => s.(loading := false, adminStats := Some(x))
    case ManagerFulfilled(x) => s.(loading := false, managerStats := Some(x))
    case MemberFulfilled(x) => s.(loading := false, memberStats := Some(x))
    case Rejected(_, msg) => s.(loading := false, error := Some(msg))
  }

  function ReduceAll(s: DashboardState, actions: seq<Action>): DashboardState
    decreases |actions|
  {
    if actions == [] then s else ReduceAll(Reduce(s, actions[0]), actions[1..])
  }

  /** An error is never shown together with the loading indicator. */
  predicate ErrorOnlyWhenIdle(s: DashboardState) {
    s.error.Some? ==> !s.loading
  }

  /** From the initial state, whatever sequence of actions arrives, an error implies not loading. */
  lemma {:induction false} ErrorNeverWhileLoading(actions: seq<Action>)
    ensures ErrorOnlyWhenIdle(ReduceAll(Initial, actions))
  {
    ErrorOnlyWhenIdleKept(Initial, actions);
  }

  lemma {:induction false} ErrorOnlyWhenIdleKept(s: DashboardState, actions: seq<Action>)
    requires ErrorOnlyWhenIdle(s)
    ensures ErrorOnlyWhenIdle(ReduceAll(s, actions))
    decreases |actions|
  {
    if actions != [] {
      ErrorOnlyWhenIdleKept(Reduce(s, actions[0]), actions[1..]);
    }
  }

  /** The admin statistics shown are those of the latest admin response since the latest clear, if any. */
  function LatestAdmin(s: DashboardState, actions: seq<Action>): Option<AdminStats>
    decreases |actions|
  {
    if actions == [] then s.adminStats
    else
      var last := actions[|actions| - 1];
      if last.AdminFulfilled? then Some(last.admin)
      else if last.Clear? then None
      else LatestAdmin(s, actions[..|actions| - 1])
  }

  lemma {:induction false} ReduceAllSnoc(s: DashboardState, actions: seq<Action>, a: Action)
    ensures ReduceAll(s, actions + [a]) == Reduce(ReduceAll(s, actions), a)
    decreases |actions|
  {
    if actions == [] {
      assert actions + [a] == [a];
      assert [a][1..] == [];
    } else {
      assert (actions + [a])[1..] == actions[1..] + [a];
      ReduceAllSnoc(Reduce(s, actions[0]), actions[1..], a);
    }
  }

  /** Only an admin response writes `adminStats`, and only a clear erases it. */
  lemma {:induction false} AdminStatsFollowResponses(s: DashboardState, actions: seq<Action>)
    ensures ReduceAll(s, actions).adminStats == LatestAdmin(s, actions)
    decreases |actions|
  {
    if actions != [] {
      var front := actions[..|actions| - 1];
      assert actions == front + [actions[|actions| - 1]];
      ReduceAllSnoc(s, front, actions[|actions| - 1]);
      AdminStatsFollowResponses(s, front);
    }
  }

  /** The slice in the store, with each case assigning its fields in place. */
  class DashboardStore {
    var adminStats: Option<AdminStats>
    var managerStats: Option<ManagerStats>
    var memberStats: Option<MemberStats>
    var loading: bool
    var error: Option<string>

    function State(): DashboardState
      reads this
    {
      DashboardState(adminStats, managerStats, memberStats, loading, error)
    }

    constructor ()
      ensures State() == Initial
    {
      adminStats, managerStats, memberStats := None, None, None;
      loading := false;
      error := None;
    }

    method ClearDashboard()
      modifies this
      ensures State() == Reduce(old(State()), Clear)
    {
      adminStats := None;
      managerStats := None;
      memberStats := None;
      error := None;
    }

    /** The pending case, identical for the three requests. */
    method StatsPending(request: StatsRequest)
      modifies this
      ensures State() == Reduce(old(State()), Pending(request))
    {
      loading := true;
      error := None;
    }

    method AdminStatsFulfilled(x: AdminStats)
      modifies this
      ensures State() == Reduce(old(State()), AdminFulfilled(x))
    {
      loading := false;
      adminStats := Some(x);
    }

    method ManagerStatsFulfilled(x: ManagerStats)
      modifies this
      ensures State() == Reduce(old(State()), ManagerFulfilled(x))
    {
      loading := false;
      managerStats := Some(x);
    }

    method MemberStatsFulfilled(x: MemberStats)
      modifies this
      ensures State() == Reduce(old(State()), MemberFulfilled(x))
    {
      loading := false;
      memberStats := Some(x);
    }

    /** The rejected case, identical for the three requests: the payload is the message. */
    method StatsRejected(request: StatsRequest, message: string)
      modifies this
      ensures State() == Reduce(old(State()), Rejected(request, message))
    {
      loading := false;
      error := Some(message);
    }
  }
}

=== FILE: dashboard_tabs.dfy ===
/** The dashboard's tab strip: the role's tabs, the create buttons and which panels exist. */
module DashboardTabs {
  import opened Entities

  /** The four panels the dashboard knows. */
  predicate IsPanel(tab: string) {
    tab == "dashboard" || tab == "projects" || tab == "teams" || tab == "tasks"
  }

  predicate IsDeclaredRole(role: string) {
    role == ADMIN || role == MANAGER || role == MEMBER
  }

  /** Where a panel's tab sits in every list that has it: dashboard, projects, teams, tasks. */
  function PanelRank(tab: string): nat {
    if tab == "dashboard" then 0 else if tab == "projects" then 1 else if tab == "teams" then 2 else 3
  }

  /**
   * The tab list for `role`. The tabs present always come in the same order, so with the
   * membership clauses this pins each role's list down.
   */
  function TabList(role: string): (r: seq<string>)
    ensures |r| >= 1 && r[0] == "dashboard"
    ensures forall i, j :: 0 <= i < j < |r| ==> PanelRank(r[i]) < PanelRank(r[j])
    ensures forall i, j :: 0 <= i < j < |r| ==> r[i] != r[j]
    ensures forall i :: 0 <= i < |r| ==> IsPanel(r[i])
    ensures "projects" in r <==> role == ADMIN || role == MANAGER
    ensures "teams" in r <==> IsDeclaredRole(role)
    ensures "tasks" in r <==> role == MANAGER || role == MEMBER
  {
    if role == ADMIN then ["dashboard", "projects", "teams"]
    else if role == MANAGER then ["dashboard", "projects", "teams", "tasks"]
    else if role == MEMBER then ["dashboard", "teams", "tasks"]
    else ["dashboard"]
  }

  /** The guard on the Create Project button. */
  function ShowCreateProject(role: string): (r: bool)
    ensures r <==> role == ADMIN || role == MANAGER
  {
    role != MEMBER && (role == ADMIN || role == MANAGER)
  }

  /**
   * The guard on the Create Task button, written as "every role but MEMBER and ADMIN": for the
   * three roles the component is typed to receive it is the manager's alone, and any other
   * role value shows it.
   */
  function ShowCreateTask(role: string): (r: bool)
    ensures IsDeclaredRole(role) ==> (r <==> role == MANAGER)
    ensures !IsDeclaredRole(role) ==> r
  {
    role != MEMBER && role != ADMIN
  }

  /** The dashboard panel is always rendered; any other panel exactly when its tab is listed. */
  function PanelRendered(role: string, tab: string): (r: bool)
    ensures r <==> tab in TabList(role)
    ensures tab == "dashboard" ==> r
  {
    tab == "dashboard" ||
    ((tab == "projects" || tab == "teams" || tab == "tasks") && tab in TabList(role))
  }

  /** Every tab a role sees opens a panel, and a panel the role has no tab for is never rendered. */
  lemma TabsAndPanelsAgree(role: string)
    ensures forall tab :: PanelRendered(role, tab) <==> tab in TabList(role)
  {
  }
}

=== FILE: entities.dfy ===
/**
 * Value shapes shared by the client's store slices and pages.
 *
 * The client is written in TypeScript, and several of its rules depend on how JavaScript
 * treats a missing property (`undefined`), `null`, the empty string and objects
 * (truthiness, `===`, `String(...)`). Those distinctions are kept explicit here.
 */
module Entities {

  datatype Option<+T> = None | Some(value: T)

  /** JavaScript truthiness of a string: only the empty string is falsy. */
  predicate Truthy(s: string) {
    s != ""
  }

  /** JavaScript truthiness of an optional string (`undefined`/`null` are falsy). */
  predicate TruthyOpt(o: Option<string>) {
    o.Some? && Truthy(o.value)
  }

  /** `x || null` on an optional string: a falsy value becomes `null`. */
  function OrNull(o: Option<string>): (r: Option<string>)
    ensures r.Some? <==> TruthyOpt(o)
    ensures r.Some? ==> r == o
  {
    if TruthyOpt(o) then o else None
  }

  /**
   * A task's status as the server sends it. The TypeScript type names only the three
   * board columns; data arriving over the network is not checked, so any other text
   * is kept as `OtherStatus`. By convention `OtherStatus` never carries one of the three
   * column names (those are `Todo`, `InProgress` and `Done`); `StatusOf` keeps to it.
   */
  datatype Status = Todo | InProgress | Done | OtherStatus(name: string)

  /** The status a column's droppable id stands for (`"in-progress"` and so on). */
  function StatusOf(text: string): (s: Status)
    ensures s.OtherStatus? <==> text !in {"todo", "in-progress", "done"}
    ensures text == "todo" ==> s == Todo
    ensures text == "in-progress" ==> s == InProgress
    ensures text == "done" ==> s == Done
    ensures s.OtherStatus? ==> s.name == text
  {
    if text == "todo" then Todo
    else if text == "in-progress" then InProgress
    else if text == "done" then Done
    else OtherStatus(text)
  }

  /** One of the three board columns. */
  predicate IsColumn(s: Status) {
    s.Todo? || s.InProgress? || s.Done?
  }

  /**
   * A property of an object received from outside (a server reply, an action payload):
   * missing (`undefined`), `null`, or given a value.
   */
  datatype Field<T> = Undefined | Null | Given(value: T)

  /**
   * `field === prop`, where `prop` is a property of the signed-in user record (a string or
   * `undefined`): `undefined` equals only `undefined`, `null` equals neither.
   */
  predicate StrictEq(f: Field<string>, prop: Option<string>) {
    match f
    case Undefined => prop.None?
    case Null => false
    case Given(s) => prop == Some(s)
  }

  /**
   * The `assignedTo` field of a task, typed `any`: missing, `null`, a bare user id, or
   * a populated user object whose `_id` and `email` may themselves be missing or `null`.
   */
  datatype Assignee =
    | Unset
    | NullRef
    | ById(id: string)
    | Populated(refId: Field<string>, email: Field<string>)

  /** JavaScript truthiness of `task.assignedTo`. */
  predicate AssigneeTruthy(a: Assignee) {
    match a
    case Unset => false
    case NullRef => false
    case ById(s) => Truthy(s)
    case Populated(_, _) => true
  }

  datatype Task = Task(
    id: string,
    title: string,
    description: Option<string>,
    status: Status,
    position: int,
    projectId: string,
    assignedTo: Assignee)

  /**
   * The signed-in user as a plain object: property name to value, where a present key
   * may hold `undefined` (None). Object spread copies such keys too.
   */
  type UserRecord = map<string, Option<string>>

  /** `user?.key` */
  function Prop(user: Option<UserRecord>, key: string): (r: Option<string>)
    ensures r.Some? ==> user.Some? && key in user.value
    ensures user.Some? && key in user.value ==> r == user.value[key]
  {
    if user.Some? && key in user.value then user.value[key] else None
  }

  /** The `'idle' | 'loading' | 'failed'` status the slices keep for their fetch requests. */
  datatype LoadStatus = Idle | Loading | Failed

  /** The outcome of an HTTP request: the response body, or a failure (the request throws). */
  datatype Response<T> = Ok(value: T) | Err

  /** `data || []` on a response body that may be missing. */
  function OrEmpty<T>(data: Option<seq<T>>): (r: seq<T>)
    ensures data.Some? ==> r == data.value
    ensures data.None? ==> r == []
  {
    if data.Some? then data.value else []
  }

  /** `tasksRes.data || []` for the reply to one project's task request. */
  function Body(reply: Response<Option<seq<Task>>>): seq<Task> {
    if reply.Ok? then OrEmpty(reply.value) else []
  }

  /** The tasks of the replies to several projects' task requests, in project order. */
  function AllTasks(replies: seq<Response<Option<seq<Task>>>>): seq<Task>
    decreases |replies|
  {
    if replies == [] then [] else AllTasks(replies[..|replies| - 1]) + Body(replies[|replies| - 1])
  }

  function HasStatus(st: Status): Task -> bool {
    (t: Task) => t.status == st
  }

  const ADMIN := "ADMIN"
  const MANAGER := "MANAGER"
  const MEMBER := "MEMBER"

  /** `list.findIndex(x => x._id === id)`: the first position holding that id, or -1. */
  function IndexOfId(list: seq<Task>, id: string): (r: int)
    ensures -1 <= r < |list|
    ensures r >= 0 ==> list[r].id == id && forall j :: 0 <= j < r ==> list[j].id != id
    ensures r == -1 <==> forall j :: 0 <= j < |list| ==> list[j].id != id
  {
    if list == [] then -1
    else if list[0].id == id then 0
    else
      var k := IndexOfId(list[1..], id);
      if k < 0 then -1 else k + 1
  }

  /** The first position holding `id` is what `IndexOfId` finds. */
  lemma IndexOfIdIs(list: seq<Task>, id: string, k: int)
    requires 0 <= k < |list| && list[k].id == id
    requires forall j :: 0 <= j < k ==> list[j].id != id
    ensures IndexOfId(list, id) == k
  {
  }

  /** How many entries of `list` carry `id` (used to speak about duplicates). */
  function CountId(list: seq<Task>, id: string): (n: nat)
    ensures n <= |list|
    ensures n == 0 <==> IndexOfId(list, id) == -1
  {
    if list == [] then 0
    else (if list[0].id == id then 1 else 0) + CountId(list[1..], id)
  }
}

=== FILE: manager_tasks.dfy ===
/**
 * The team tasks page: a manager gets the team's tasks and counts from one request;
 * anyone else collects, project by project, the tasks assigned to them and counts them.
 */
module ManagerTasks {
  import opened Entities
  import Seqs

  /** `String(t.assignedTo?._id || t.assignedTo)` */
  function AssigneeString(a: Assignee): (r: string)
    ensures a.Unset? ==> r == "undefined"
    ensures a.NullRef? ==> r == "null"
    ensures a.ById? ==> r == a.id
    ensures a.Populated? && a.refId.Given? && Truthy(a.refId.value) ==> r == a.refId.value
    ensures a.Populated? && !(a.refId.Given? && Truthy(a.refId.value)) ==> r == "[object Object]"
  {
    match a
    case Unset => "undefined"
    case NullRef => "null"
    case ById(s) => s
    case Populated(refId, _) => if refId.Given? && Truthy(refId.value) then refId.value else "[object Object]"
  }

  /** `String(userId)` for the signed-in user's `id`, which may be missing. */
  function UserIdString(userId: Option<string>): string {
    if userId.Some? then userId.value else "undefined"
  }

  /** The filter applied to each project's tasks. */
  function Mine(userId: Option<string>): (r: Task -> bool)
    ensures forall t: Task :: t.assignedTo.ById? && userId == Some(t.assignedTo.id) ==> r(t)
    ensures forall t: Task :: t.assignedTo.Unset? ==> (r(t) <==> userId.None? || userId == Some("undefined"))
    ensures forall t: Task :: t.assignedTo.NullRef? ==> (r(t) <==> userId == Some("null"))
  {
    (t: Task) => AssigneeString(t.assignedTo) == UserIdString(userId)
  }

  /**
   * Which tasks the filter keeps for a signed-in user with id `id`: a task referencing the
   * user by bare id, or by a populated object carrying that id; never a task with no
   * assignee, a `null` one, or an object without a usable id (unless the id is one of the
   * strings those stringify to).
   */
  lemma MineForUser(id: string, t: Task)
    requires id != "undefined" && id != "null" && id != "[object Object]"
    ensures Mine(Some(id))(t) <==>
      t.assignedTo == ById(id) || (t.assignedTo.Populated? && t.assignedTo.refId == Given(id) && Truthy(id))
  {
  }

  /**
   * As written, a user record without an `id` stringifies to "undefined", and so does a
   * task with no assignee: such a user is shown every unassigned task.
   */
  lemma MissingIdMatchesUnassigned(t: Task)
    requires t.assignedTo.Unset?
    ensures Mine(None)(t)
    ensures !Mine(Some("u1"))(t)
  {
  }

  /** The `TaskCounts` the page shows. */
  datatype Counts = Counts(todo: nat, inProgress: nat, done: nat, total: nat)

  /** The counts computed for the collected tasks. */
  function CountsFor(tasks: seq<Task>): (r: Counts)
    ensures r.total == |tasks|
    ensures r.todo <= r.total && r.inProgress <= r.total && r.done <= r.total
    ensures forall t: Task :: t in tasks && t.status == Todo ==> r.todo > 0
  {
    Counts(|Seqs.Filter(tasks, HasStatus(Todo))|, |Seqs.Filter(tasks, HasStatus(InProgress))|,
           |Seqs.Filter(tasks, HasStatus(Done))|, |tasks|)
  }

  /**
   * The three column counts never exceed the total, and add up to it exactly when every
   * task carries one of the three statuses.
   */
  lemma {:induction false} CountsAddUp(tasks: seq<Task>)
    ensures CountsFor(tasks).todo + CountsFor(tasks).inProgress + CountsFor(tasks).done <= CountsFor(tasks).total
    ensures (forall i :: 0 <= i < |tasks| ==> IsColumn(tasks[i].status)) ==>
      CountsFor(tasks).todo + CountsFor(tasks).inProgress + CountsFor(tasks).done == CountsFor(tasks).total
    decreases |tasks|
  {
    if tasks != [] {
      var rest := tasks[1..];
      CountsAddUp(rest);
      assert forall i :: 0 <= i < |rest| ==> rest[i] == tasks[i + 1];
    }
  }

  /** The body of the manager endpoint's reply. */
  datatype TeamTasks = TeamTasks(tasks: seq<Task>, counts: Counts)

  /** The page's `tasks` and `counts` state. */
  datatype PageState = PageState(tasks: seq<Task>, counts: Option<Counts>)

  /** What the loop has pushed after the replies `replies`: each one's accepted tasks, in order. */
  function Collected(userId: Option<string>, replies: seq<Response<Option<seq<Task>>>>): seq<Task>
    decreases |replies|
  {
    if replies == [] then []
    else Collected(userId, replies[..|replies| - 1]) + Seqs.Filter(Body(replies[|replies| - 1]), Mine(userId))
  }

  /** One more successful reply pushes its accepted tasks. */
  lemma CollectedStep(userId: Option<string>, replies: seq<Response<Option<seq<Task>>>>, i: nat)
    requires i < |replies| && replies[i].Ok?
    ensures Collected(userId, replies[..i + 1])
         == Collected(userId, replies[..i]) + Seqs.Filter(OrEmpty(replies[i].value), Mine(userId))
  {
    assert replies[..i + 1][..i] == replies[..i];
  }

  /** Pushing each project's accepted tasks is filtering all the projects' tasks at once. */
  lemma {:induction false} CollectedIsFilter(userId: Option<string>, replies: seq<Response<Option<seq<Task>>>>)
    ensures Collected(userId, replies) == Seqs.Filter(AllTasks(replies), Mine(userId))
    decreases |replies|
  {
    if replies != [] {
      var init := replies[..|replies| - 1];
      CollectedIsFilter(userId, init);
      Seqs.FilterConcat(AllTasks(init), Body(replies[|replies| - 1]), Mine(userId));
    }
  }

  /**
   * The member branch's loop: one task request per project, in project order, keeping
   * the tasks the filter accepts. The first failed request ends it in the `catch`.
   */
  method CollectAssigned(userId: Option<string>, taskReplies: seq<Response<Option<seq<Task>>>>)
    returns (r: Option<seq<Task>>)
    ensures r.None? <==> Err in taskReplies
    ensures r.Some? ==> r.value == Collected(userId, taskReplies)
  {
    var allTasks: seq<Task> := [];
    var i := 0;
    while i < |taskReplies|
      invariant 0 <= i <= |taskReplies|
      invariant Err !in taskReplies[..i]
      invariant allTasks == Collected(userId, taskReplies[..i])
    {
      var reply := taskReplies[i];
      if reply.Err? {
        return None;
      }
      var list := OrEmpty(reply.value);
      CollectedStep(userId, taskReplies, i);
      allTasks := allTasks + Seqs.Filter(list, Mine(userId));
      i := i + 1;
    }
    assert taskReplies[..i] == taskReplies;
    return Some(allTasks);
  }

  /**
   * The load effect. The replies are parameters: the manager endpoint's, the project
   * list's, and each project's task list in project order. Without a team id nothing is
   * requested; any failed request lands in the `catch` and the state stays as it was.
   */
  method Load(teamId: Option<string>, role: Option<string>, userId: Option<string>,
              teamReply: Response<TeamTasks>, projectsReply: Response<Option<seq<string>>>,
              taskReplies: seq<Response<Option<seq<Task>>>>, shown: PageState)
    returns (r: PageState)
    requires projectsReply.Ok? ==> |taskReplies| == |OrEmpty(projectsReply.value)|
    ensures !TruthyOpt(teamId) ==> r == shown
    ensures TruthyOpt(teamId) && role == Some(MANAGER) ==>
      r == if teamReply.Ok? then PageState(teamReply.value.tasks, Some(teamReply.value.counts)) else shown
    ensures TruthyOpt(teamId) && role != Some(MANAGER) && projectsReply.Err? ==> r == shown
    ensures TruthyOpt(teamId) && role != Some(MANAGER) && Err in taskReplies ==> r == shown
    ensures TruthyOpt(teamId) && role != Some(MANAGER) && projectsReply.Ok? && Err !in taskReplies ==>
      r.tasks == Seqs.Filter(AllTasks(taskReplies), Mine(userId)) && r.counts == Some(CountsFor(r.tasks))
  {
    if !TruthyOpt(teamId) {
      return shown;
    }
    if role == Some(MANAGER) {
      if teamReply.Err? {
        return shown;
      }
      return PageState(teamReply.value.tasks, Some(teamReply.value.counts));
    }
    if projectsReply.Err? {
      return shown;
    }
    var collected := CollectAssigned(userId, taskReplies);
    if collected.None? {
      return shown;
    }
    var allTasks := collected.value;
    CollectedIsFilter(userId, taskReplies);
    var todo := |Seqs.Filter(allTasks, HasStatus(Todo))|;
    var inProgress := |Seqs.Filter(allTasks, HasStatus(InProgress))|;
    var done := |Seqs.Filter(allTasks, HasStatus(Done))|;
    return PageState(allTasks, Some(Counts(todo, inProgress, done, |allTasks|)));
  }
}

=== FILE: project_slice.dfy ===
/** The project slice: the user's projects and the status of their fetch. */
module ProjectSlice {
  import opened Entities

  datatype Project = Project(id: string, name: string, description: Option<string>)

  datatype ProjectState = ProjectState(projects: seq<Project>, status: LoadStatus)

  /** The `fetchProjects` lifecycle; the slice has no other reducer. */
  datatype Action = FetchPending | FetchFulfilled(projects: seq<Project>) | FetchRejected

  const Initial := ProjectState([], Idle)

  function Reduce(s: ProjectState, a: Action): (r: ProjectState)
    ensures a.FetchFulfilled? ==> r.projects == a.projects
    ensures !a.FetchFulfilled? ==> r.projects == s.projects
    ensures r.status == match a case FetchPending => Loading case FetchFulfilled(_) => Idle case FetchRejected => Failed
  {
    match a
    case FetchPending => s.(status := Loading)
    case FetchFulfilled(ps) => ProjectState(ps, Idle)
    case FetchRejected => s.(status := Failed)
  }

  function ReduceAll(s: ProjectState, actions: seq<Action>): ProjectState
    decreases |actions|
  {
    if actions == [] then s else ReduceAll(Reduce(s, actions[0]), actions[1..])
  }

  /** The payload of the latest fulfilled fetch among `actions`, if there is one. */
  function LatestPayload(actions: seq<Action>): Option<seq<Project>>
    decreases |actions|
  {
    if actions == [] then None
    else
      var later := LatestPayload(actions[1..]);
      if later.Some? then later
      else if actions[0].FetchFulfilled? then Some(actions[0].projects)
      else None
  }

  /**
   * The list shown is the latest successful response, or the one already held if no fetch
   * in between succeeded: pending and failed fetches never clear or alter it.
   */
  lemma {:induction false} ProjectsAreLatestResponse(s: ProjectState, actions: seq<Action>)
    ensures ReduceAll(s, actions).projects ==
      match LatestPayload(actions) case Some(ps) => ps case None => s.projects
    decreases |actions|
  {
    if actions != [] {
      ProjectsAreLatestResponse(Reduce(s, actions[0]), actions[1..]);
    }
  }

  /** The slice in the store. */
  class ProjectStore {
    var projects: seq<Project>
    var status: LoadStatus

    function State(): ProjectState
      reads this
    {
      ProjectState(projects, status)
    }

    constructor ()
      ensures State() == Initial
    {
      projects := [];
      status := Idle;
    }

    method FetchPending()
      modifies this
      ensures State() == Reduce(old(State()), Action.FetchPending)
    {
      status := Loading;
    }

    method FetchFulfilled(ps: seq<Project>)
      modifies this
      ensures State() == Reduce(old(State()), Action.FetchFulfilled(ps))
    {
      status := Idle;
      projects := ps;
    }

    method FetchRejected()
      modifies this
      ensures State() == Reduce(old(State()), Action.FetchRejected)
    {
      status := Failed;
    }
  }
}

=== FILE: seqs.dfy ===
/**
 * `Array.prototype.filter` and the two-class stable sort the pages apply with
 * comparators of the shape "members of the class first, otherwise keep order".
 */
module Seqs {

  /** `s.filter(p)` */
  function Filter<T(!new)>(s: seq<T>, p: T -> bool): (r: seq<T>)
    ensures |r| <= |s|
    ensures forall x :: x in r <==> x in s && p(x)
  {
    if s == [] then [] else (if p(s[0]) then [s[0]] else []) + Filter(s[1..], p)
  }

  /** Filtering keeps every copy of an element that satisfies `p` and no copy of one that does not. */
  lemma {:induction false} FilterMultiset<T(!new)>(s: seq<T>, p: T -> bool)
    ensures multiset(Filter(s, p)) + multiset(Filter(s, Not(p))) == multiset(s)
  {
    if s != [] {
      FilterMultiset(s[1..], p);
      var head, yes, no := s[0], Filter(s[1..], p), Filter(s[1..], Not(p));
      assert s == [head] + s[1..];
      assert Not(p)(head) == !p(head);
      if p(head) {
        assert Filter(s, p) == [head] + yes;
        assert Filter(s, Not(p)) == no;
      } else {
        assert Filter(s, p) == yes;
        assert Filter(s, Not(p)) == [head] + no;
      }
    }
  }

  /** How many copies of `x` survive `Filter`: all of them if `p(x)`, none otherwise. */
  lemma FilterCount<T(!new)>(s: seq<T>, p: T -> bool, x: T)
    ensures multiset(Filter(s, p))[x] == if p(x) then multiset(s)[x] else 0
  {
    FilterMultiset(s, p);
    if p(x) {
      assert x !in Filter(s, Not(p));
    } else {
      assert x !in Filter(s, p);
    }
  }

  function Not<T(!new)>(p: T -> bool): T -> bool {
    x => !p(x)
  }

  lemma {:induction false} FilterConcat<T(!new)>(a: seq<T>, b: seq<T>, p: T -> bool)
    ensures Filter(a + b, p) == Filter(a, p) + Filter(b, p)
  {
    if a == [] {
      assert a + b == b;
    } else {
      assert (a + b)[1..] == a[1..] + b;
      FilterConcat(a[1..], b, p);
    }
  }

  /** Appending one element appends it to the filtered sequence exactly when it passes. */
  lemma FilterSnoc<T(!new)>(s: seq<T>, x: T, p: T -> bool)
    ensures Filter(s + [x], p) == Filter(s, p) + (if p(x) then [x] else [])
  {
    FilterConcat(s, [x], p);
    assert [x][1..] == [];
  }

  /** Filtering twice by the same predicate is filtering once. */
  lemma {:induction false} FilterIdempotent<T(!new)>(s: seq<T>, p: T -> bool)
    ensures Filter(Filter(s, p), p) == Filter(s, p)
  {
    if s != [] {
      FilterIdempotent(s[1..], p);
      if p(s[0]) {
        var rest := Filter(s[1..], p);
        assert Filter(s, p) == [s[0]] + rest;
        assert ([s[0]] + rest)[1..] == rest;
        assert Filter([s[0]] + rest, p) == [s[0]] + Filter(rest, p);
      } else {
        assert Filter(s, p) == [] + Filter(s[1..], p) == Filter(s[1..], p);
      }
    }
  }

  lemma {:induction false} FilterKeepsAll<T(!new)>(s: seq<T>, p: T -> bool)
    requires forall i :: 0 <= i < |s| ==> p(s[i])
    ensures Filter(s, p) == s
  {
    if s != [] {
      FilterKeepsAll(s[1..], p);
    }
  }

  lemma {:induction false} FilterDropsAll<T(!new)>(s: seq<T>, p: T -> bool)
    requires forall i :: 0 <= i < |s| ==> !p(s[i])
    ensures Filter(s, p) == []
  {
    if s != [] {
      FilterDropsAll(s[1..], p);
    }
  }

  /**
   * `[...s].sort(cmp)` for a comparator that returns -1 when only `a` satisfies `p`, 1 when
   * only `b` does, and 0 otherwise. The sort is stable, so the result is the elements
   * satisfying `p` in their original order followed by the others in theirs.
   */
  function Partition<T(!new)>(s: seq<T>, p: T -> bool): (r: seq<T>)
    ensures multiset(r) == multiset(s)
    ensures forall i, j :: 0 <= i < j < |r| && p(r[j]) ==> p(r[i])
  {
    FilterMultiset(s, p);
    Filter(s, p) + Filter(s, Not(p))
  }

  /**
   * What makes `Partition` the stable sort by that comparator: a permutation, ordered by
   * the comparator (checked by `Partition`'s contract), in which each class keeps its
   * original relative order.
   */
  lemma PartitionIsStable<T(!new)>(s: seq<T>, p: T -> bool)
    ensures Filter(Partition(s, p), p) == Filter(s, p)
    ensures Filter(Partition(s, p), Not(p)) == Filter(s, Not(p))
  {
    var yes, no := Filter(s, p), Filter(s, Not(p));
    FilterConcat(yes, no, p);
    FilterConcat(yes, no, Not(p));
    FilterIdempotent(s, p);
    FilterIdempotent(s, Not(p));
    FilterKeepsAll(no, Not(p));
    FilterDropsAll(no, p);
    FilterDropsAll(yes, Not(p));
  }
}

=== FILE: task_slice.dfy ===
/**
 * The task slice of the Redux store: a per-project list of tasks plus the status of the
 * last list fetch. Reducers mutate an Immer draft in place; here they are the methods of
 * `TaskStore`, each tied to the pure transition `Reduce`.
 */
module TaskSlice {
  import opened Entities
  import Seqs

  type ByProject = map<string, seq<Task>>

  datatype TaskState = TaskState(byProject: ByProject, status: LoadStatus)

  /** Every action this slice's reducer receives, including thunk lifecycle actions it ignores. */
  datatype Action =
    | Add(projectId: string, task: Task)                // addTask
    | Update(task: Task)                                // updateTask
    | Delete(projectId: string, taskId: string)         // deleteTask
    | FetchPending                                      // fetchTasks.pending
    | FetchFulfilled(projectId: string, tasks: seq<Task>)
    | FetchRejected
    | MovePending                                       // moveTask.pending: no case
    | MoveFulfilled(task: Task)
    | MoveRejected                                      // moveTask.rejected: no case

  const Initial := TaskState(map[], Idle)

  /** `byProject[projectId] || []` */
  function ListOf(m: ByProject, projectId: string): seq<Task> {
    if projectId in m then m[projectId] else []
  }

  /** The one project key an action may touch, if any. */
  function Target(a: Action): Option<string> {
    match a
    case Add(p, _) => Some(p)
    case Update(t) => Some(t.projectId)
    case Delete(p, _) => Some(p)
    case FetchFulfilled(p, _) => Some(p)
    case MoveFulfilled(t) => Some(t.projectId)
    case _ => None
  }

  /** Two stores agree on every project other than `p`. */
  ghost predicate SameElsewhere(m: ByProject, m': ByProject, p: Option<string>) {
    forall q :: Some(q) != p ==> (q in m' <==> q in m) && (q in m ==> m'[q] == m[q])
  }

  /** `Not(HasId(id))` is the filter `deleteTask` applies. */
  function HasId(id: string): Task -> bool {
    (t: Task) => t.id == id
  }

  /** `if (idx >= 0) list[idx] = t` with `idx` the first position of `t._id`. */
  function Replaced(list: seq<Task>, t: Task): (r: seq<Task>)
    ensures |r| == |list|
    ensures IndexOfId(list, t.id) == -1 ==> r == list
    ensures IndexOfId(list, t.id) >= 0 ==> r[IndexOfId(list, t.id)] == t
    ensures forall j :: 0 <= j < |list| && j != IndexOfId(list, t.id) ==> r[j] == list[j]
  {
    var idx := IndexOfId(list, t.id);
    if idx >= 0 then list[idx := t] else list
  }

  /** `moveTask.fulfilled` on a list: replace the first entry with `t._id`, else append `t`. */
  function Merged(list: seq<Task>, t: Task): (r: seq<Task>)
    ensures t in r
    ensures |r| == if IndexOfId(list, t.id) >= 0 then |list| else |list| + 1
    ensures forall j :: 0 <= j < |list| ==> r[j] == list[j] || (r[j] == t && list[j].id == t.id)
    ensures IndexOfId(r, t.id) >= 0 && r[IndexOfId(r, t.id)] == t
  {
    var idx := IndexOfId(list, t.id);
    if idx >= 0 then
      assert list[idx := t][idx] == t;
      assert IndexOfId(list[idx := t], t.id) == idx by { IndexOfIdIs(list[idx := t], t.id, idx); }
      list[idx := t]
    else
      assert (list + [t])[|list|] == t;
      assert IndexOfId(list + [t], t.id) == |list| by { IndexOfIdIs(list + [t], t.id, |list|); }
      list + [t]
  }

  /** The whole reducer, one case per `addCase`/reducer of the slice. */
  function Reduce(s: TaskState, a: Action): (r: TaskState)
    ensures SameElsewhere(s.byProject, r.byProject, Target(a))
    ensures r.status != s.status ==> a.FetchPending? || a.FetchFulfilled? || a.FetchRejected?
  {
    var m := s.byProject;
    match a
    case Add(p, t) => s.(byProject := m[p := [t] + ListOf(m, p)])
    case Update(t) =>
      // `|| []` hands out a detached array when the key is absent: the write is lost
      if t.projectId in m then s.(byProject := m[t.projectId := Replaced(m[t.projectId], t)]) else s
    case Delete(p, id) => s.(byProject := m[p := Seqs.Filter(ListOf(m, p), Seqs.Not(HasId(id)))])
    case FetchPending => s.(status := Loading)
    case FetchFulfilled(p, ts) => TaskState(m[p := ts], Idle)
    case FetchRejected => s.(status := Failed)
    case MovePending => s
    case MoveFulfilled(t) =>
      if t.projectId in m then s.(byProject := m[t.projectId := Merged(m[t.projectId], t)]) else s
    case MoveRejected => s
  }

  /** The state after a sequence of actions, in dispatch order. */
  function ReduceAll(s: TaskState, actions: seq<Action>): TaskState
    decreases |actions|
  {
    if actions == [] then s else ReduceAll(Reduce(s, actions[0]), actions[1..])
  }

  // ---------------------------------------------------------------- addTask

  /** `addTask` puts the task at the head and keeps the old list behind it. */
  lemma AddPrepends(s: TaskState, p: string, t: Task)
    ensures var list := Reduce(s, Add(p, t)).byProject[p];
      |list| == |ListOf(s.byProject, p)| + 1 && list[0] == t && list[1..] == ListOf(s.byProject, p)
  {
    var list := Reduce(s, Add(p, t)).byProject[p];
    assert list == [t] + ListOf(s.byProject, p);
  }

  /**
   * `addTask` does not look for an existing id: the create response followed by the
   * server's `task:created` rebroadcast of the same task leaves two entries with its id.
   */
  lemma AddTwiceDuplicates(s: TaskState, p: string, t: Task)
    ensures var twice := ReduceAll(s, [Add(p, t), Add(p, t)]);
      p in twice.byProject && CountId(twice.byProject[p], t.id) == CountId(ListOf(s.byProject, p), t.id) + 2
    ensures ReduceAll(s, [Add(p, t), Add(p, t)]) != Reduce(s, Add(p, t))
  {
    var once := Reduce(s, Add(p, t));
    var twice := Reduce(once, Add(p, t));
    assert [Add(p, t), Add(p, t)][1..] == [Add(p, t)];
    assert [Add(p, t)][1..] == [];
    assert ReduceAll(once, [Add(p, t)]) == ReduceAll(twice, []) == twice;
    assert ReduceAll(s, [Add(p, t), Add(p, t)]) == twice;
    var old_ := ListOf(s.byProject, p);
    assert once.byProject[p] == [t] + old_;
    assert ([t] + old_)[1..] == old_;
    assert twice.byProject[p] == [t] + ([t] + old_);
    assert ([t] + ([t] + old_))[1..] == [t] + old_;
    assert |twice.byProject[p]| != |once.byProject[p]|;
  }

  // ---------------------------------------------------------------- updateTask

  /**
   * `updateTask` replaces the slot holding the task's id and changes nothing else; if the id
   * is not in the project's list, or the project has no list, the store is unchanged.
   */
  lemma UpdateReplacesInPlace(s: TaskState, t: Task)
    ensures var r := Reduce(s, Update(t));
      var p := t.projectId;
      if p in s.byProject && IndexOfId(s.byProject[p], t.id) >= 0 then
        var idx := IndexOfId(s.byProject[p], t.id);
        p in r.byProject && |r.byProject[p]| == |s.byProject[p]| && r.byProject[p][idx] == t
        && (forall j :: 0 <= j < |s.byProject[p]| && j != idx ==> r.byProject[p][j] == s.byProject[p][j])
      else r == s
  {
    var p := t.projectId;
    if p in s.byProject && IndexOfId(s.byProject[p], t.id) == -1 {
      assert s.byProject[p := s.byProject[p]] == s.byProject;
    }
  }

  lemma {:induction false} ReplacedIdempotent(list: seq<Task>, t: Task)
    ensures Replaced(Replaced(list, t), t) == Replaced(list, t)
  {
    var idx := IndexOfId(list, t.id);
    if idx >= 0 {
      var once := list[idx := t];
      IndexOfIdIs(once, t.id, idx);
    }
  }

  /** Applying the same `updateTask` payload twice is the same as applying it once. */
  lemma UpdateIdempotent(s: TaskState, t: Task)
    ensures Reduce(Reduce(s, Update(t)), Update(t)) == Reduce(s, Update(t))
  {
    if t.projectId in s.byProject {
      ReplacedIdempotent(s.byProject[t.projectId], t);
    }
  }

  // ---------------------------------------------------------------- deleteTask

  /** After `deleteTask` no entry of the project carries the id. */
  lemma DeleteRemovesEveryCopy(s: TaskState, p: string, id: string)
    ensures CountId(Reduce(s, Delete(p, id)).byProject[p], id) == 0
  {
    var list := Reduce(s, Delete(p, id)).byProject[p];
    assert list == Seqs.Filter(ListOf(s.byProject, p), Seqs.Not(HasId(id)));
    forall j | 0 <= j < |list|
      ensures list[j].id != id
    {
      assert list[j] in list;
    }
  }

  /** `deleteTask` keeps every copy of every entry with another id. */
  lemma DeleteKeepsOthers(s: TaskState, p: string, id: string, x: Task)
    requires x.id != id
    ensures multiset(Reduce(s, Delete(p, id)).byProject[p])[x] == multiset(ListOf(s.byProject, p))[x]
  {
    var before := ListOf(s.byProject, p);
    var keep := Seqs.Not(HasId(id));
    Seqs.FilterMultiset(before, keep);
    assert x !in Seqs.Filter(before, Seqs.Not(keep));
  }

  /** A second identical `deleteTask` is a no-op. */
  lemma DeleteIdempotent(s: TaskState, p: string, id: string)
    ensures Reduce(Reduce(s, Delete(p, id)), Delete(p, id)) == Reduce(s, Delete(p, id))
  {
    Seqs.FilterIdempotent(ListOf(s.byProject, p), Seqs.Not(HasId(id)));
  }

  /**
   * The entries `deleteTask` keeps stay in their relative order: splitting the project's list
   * anywhere, the new list is the kept part of the front followed by the kept part of the back.
   */
  lemma DeleteKeepsOrder(s: TaskState, p: string, id: string, front: seq<Task>, back: seq<Task>)
    requires ListOf(s.byProject, p) == front + back
    ensures var keep := Seqs.Not(HasId(id));
      Reduce(s, Delete(p, id)).byProject[p] == Seqs.Filter(front, keep) + Seqs.Filter(back, keep)
  {
    Seqs.FilterConcat(front, back, Seqs.Not(HasId(id)));
  }

  // ---------------------------------------------------------------- fetchTasks

  /** Fulfilled replaces the project's list wholesale; pending and rejected only set the status. */
  lemma FetchCases(s: TaskState, p: string, ts: seq<Task>)
    ensures Reduce(s, FetchFulfilled(p, ts)).byProject[p] == ts
    ensures Reduce(s, FetchFulfilled(p, ts)).status == Idle
    ensures Reduce(s, FetchPending) == s.(status := Loading)
    ensures Reduce(s, FetchRejected) == s.(status := Failed)
  {
  }

  // ---------------------------------------------------------------- moveTask

  /**
   * `moveTask.fulfilled` replaces a present task in place or appends it at the end of the
   * project's list; when the project has no list the temporary one is discarded.
   */
  lemma MoveReplacesOrAppends(s: TaskState, t: Task)
    ensures var r := Reduce(s, MoveFulfilled(t));
      var p := t.projectId;
      if p !in s.byProject then r == s
      else if IndexOfId(s.byProject[p], t.id) >= 0 then r == Reduce(s, Update(t))
      else r.byProject[p] == s.byProject[p] + [t] && r.status == s.status
  {
  }

  /** On one list, the move result absorbs the update on either side. */
  lemma MergedAbsorbsReplaced(list: seq<Task>, t: Task)
    ensures Replaced(Merged(list, t), t) == Merged(list, t)
    ensures Merged(Replaced(list, t), t) == Merged(list, t)
  {
    var idx := IndexOfId(list, t.id);
    if idx >= 0 {
      ReplacedIdempotent(list, t);
      IndexOfIdIs(list[idx := t], t.id, idx);
    } else {
      IndexOfIdIs(list + [t], t.id, |list|);
      assert (list + [t])[|list| := t] == list + [t];
    }
  }

  /**
   * The move response and the server's `task:moved` rebroadcast (dispatched as `updateTask`)
   * lead to the same store in either arrival order.
   */
  lemma MoveResponseAndPushCommute(s: TaskState, t: Task)
    ensures Reduce(Reduce(s, MoveFulfilled(t)), Update(t)) == Reduce(Reduce(s, Update(t)), MoveFulfilled(t))
  {
    var p, m := t.projectId, s.byProject;
    if p in m {
      var list := m[p];
      MergedAbsorbsReplaced(list, t);
      assert Reduce(Reduce(s, MoveFulfilled(t)), Update(t)).byProject == m[p := Merged(list, t)];
      assert Reduce(Reduce(s, Update(t)), MoveFulfilled(t)).byProject == m[p := Merged(list, t)];
    }
  }

  /** As written, `deleteTask` on a project without a list leaves an empty list under its key. */
  lemma DeleteOnAbsentProjectCreatesList(s: TaskState, p: string, id: string)
    requires p !in s.byProject
    ensures Reduce(s, Delete(p, id)).byProject == s.byProject[p := []]
  {
    assert Seqs.Filter([], Seqs.Not(HasId(id))) == [];
  }

  // ---------------------------------------------------------------- frame

  /** Whatever is dispatched, every project other than the action's own keeps its list. */
  lemma {:induction false} OtherProjectsUntouched(s: TaskState, actions: seq<Action>, q: string)
    requires forall i :: 0 <= i < |actions| ==> Target(actions[i]) != Some(q)
    ensures (q in ReduceAll(s, actions).byProject <==> q in s.byProject)
    ensures q in s.byProject ==> ReduceAll(s, actions).byProject[q] == s.byProject[q]
    decreases |actions|
  {
    if actions != [] {
      OtherProjectsUntouched(Reduce(s, actions[0]), actions[1..], q);
    }
  }

  /** The slice as the Redux store holds it, updated in place by its reducers. */
  class TaskStore {
    var byProject: ByProject
    var status: LoadStatus

    function State(): TaskState
      reads this
    {
      TaskState(byProject, status)
    }

    constructor ()
      ensures State() == Initial
    {
      byProject := map[];
      status := Idle;
    }

    method AddTask(projectId: string, task: Task)
      modifies this
      ensures State() == Reduce(old(State()), Add(projectId, task))
    {
      var list := if projectId in byProject then byProject[projectId] else [];
      byProject := byProject[projectId := [task] + list];
    }

    method UpdateTask(t: Task)
      modifies this
      ensures State() == Reduce(old(State()), Update(t))
    {
      var stored := t.projectId in byProject;
      var list := if stored then byProject[t.projectId] else [];
      var idx := IndexOfId(list, t.id);
      if idx >= 0 {
        list := list[idx := t];
        if stored {
          byProject := byProject[t.projectId := list];
        }
      }
    }

    method DeleteTask(projectId: string, taskId: string)
      modifies this
      ensures State() == Reduce(old(State()), Delete(projectId, taskId))
    {
      var list := if projectId in byProject then byProject[projectId] else [];
      byProject := byProject[projectId := Seqs.Filter(list, Seqs.Not(HasId(taskId)))];
    }

    method FetchPending()
      modifies this
      ensures State() == Reduce(old(State()), Action.FetchPending)
    {
      status := Loading;
    }

    method FetchFulfilled(projectId: string, tasks: seq<Task>)
      modifies this
      ensures State() == Reduce(old(State()), Action.FetchFulfilled(projectId, tasks))
    {
      status := Idle;
      byProject := byProject[projectId := tasks];
    }

    method FetchRejected()
      modifies this
      ensures State() == Reduce(old(State()), Action.FetchRejected)
    {
      status := Failed;
    }

    method MoveFulfilled(t: Task)
      modifies this
      ensures State() == Reduce(old(State()), Action.MoveFulfilled(t))
    {
      var stored := t.projectId in byProject;
      var list := if stored then byProject[t.projectId] else [];
      var idx := IndexOfId(list, t.id);
      if idx >= 0 {
        list := list[idx := t];
      } else {
        list := list + [t];
      }
      if stored {
        byProject := byProject[t.projectId := list];
      }
    }

    /** `dispatch` restricted to this slice: route the action to its case. */
    method Dispatch(a: Action)
      modifies this
      ensures State() == Reduce(old(State()), a)
    {
      match a
      case Add(p, t) => AddTask(p, t);
      case Update(t) => UpdateTask(t);
      case Delete(p, id) => DeleteTask(p, id);
      case FetchPending => FetchPending();
      case FetchFulfilled(p, ts) => FetchFulfilled(p, ts);
      case FetchRejected => FetchRejected();
      case MovePending =>
      case MoveFulfilled(t) => MoveFulfilled(t);
      case MoveRejected =>
    }
  }
}

=== FILE: team_overview.dfy ===
/**
 * The team overview page: the per-member task statistics, the order members are listed
 * in, and the dialog that invites existing users (its selection toggles and the loop
 * that sends the invites).
 */
module TeamOverview {
  import opened Entities
  import Seqs

  // ---------------------------------------------------------------- task statistics

  datatype TaskStats = TaskStats(total: nat, completed: nat, pending: nat)

  const NoStats := TaskStats(0, 0, 0)

  /**
   * The key `statsMap[memberId]` files a task under: none when `task.assignedTo` is falsy,
   * the id itself for a bare id, and the property-key string of an object otherwise.
   */
  function StatsKey(a: Assignee): (r: Option<string>)
    ensures r.None? <==> !AssigneeTruthy(a)
    ensures a.ById? && Truthy(a.id) ==> r == Some(a.id)
    ensures a.Populated? ==> r == Some("[object Object]")
  {
    match a
    case Unset => None
    case NullRef => None
    case ById(s) => if Truthy(s) then Some(s) else None
    case Populated(_, _) => Some("[object Object]")
  }

  function FiledUnder(key: string): Task -> bool {
    (t: Task) => StatsKey(t.assignedTo) == Some(key)
  }

  function DoneFor(key: string): Task -> bool {
    (t: Task) => StatsKey(t.assignedTo) == Some(key) && t.status == Done
  }

  function PendingFor(key: string): Task -> bool {
    (t: Task) => StatsKey(t.assignedTo) == Some(key) && t.status != Done
  }

  /** The counters the member filed under `key` holds once the tasks of `tasks` have been counted in order. */
  function Tally(tasks: seq<Task>, key: string): (r: TaskStats)
    ensures r.total == r.completed + r.pending
    decreases |tasks|
  {
    if tasks == [] then NoStats
    else
      var init, t := tasks[..|tasks| - 1], tasks[|tasks| - 1];
      var prev := Tally(init, key);
      if StatsKey(t.assignedTo) != Some(key) then prev
      else if t.status == Done then prev.(total := prev.total + 1, completed := prev.completed + 1)
      else prev.(total := prev.total + 1, pending := prev.pending + 1)
  }

  /**
   * The tally against an independent count: a member's total is the number of tasks filed
   * under them, completed those of them that are done, and pending the rest, whether
   * to do, in progress or any other status.
   */
  lemma {:induction false} TallyCounts(tasks: seq<Task>, key: string)
    ensures Tally(tasks, key).total == |Seqs.Filter(tasks, FiledUnder(key))|
    ensures Tally(tasks, key).completed == |Seqs.Filter(tasks, DoneFor(key))|
    ensures Tally(tasks, key).pending == |Seqs.Filter(tasks, PendingFor(key))|
    decreases |tasks|
  {
    if tasks != [] {
      var init, t := tasks[..|tasks| - 1], tasks[|tasks| - 1];
      assert tasks == init + [t];
      TallyCounts(init, key);
      Seqs.FilterSnoc(init, t, FiledUnder(key));
      Seqs.FilterSnoc(init, t, DoneFor(key));
      Seqs.FilterSnoc(init, t, PendingFor(key));
    }
  }

  /** A member has counters exactly when some task is filed under them. */
  lemma TallyZero(tasks: seq<Task>, key: string)
    ensures Tally(tasks, key).total == 0 <==> forall i :: 0 <= i < |tasks| ==> StatsKey(tasks[i].assignedTo) != Some(key)
  {
    TallyCounts(tasks, key);
    var filed := Seqs.Filter(tasks, FiledUnder(key));
    if |filed| > 0 {
      assert filed[0] in filed;
    } else {
      forall i | 0 <= i < |tasks|
        ensures StatsKey(tasks[i].assignedTo) != Some(key)
      {
        assert tasks[i] !in filed;
      }
    }
  }

  /** A task whose `assignedTo` is falsy changes no member's counters. */
  lemma UnassignedCountsForNobody(tasks: seq<Task>, t: Task, key: string)
    requires !AssigneeTruthy(t.assignedTo)
    ensures Tally(tasks + [t], key) == Tally(tasks, key)
  {
    assert (tasks + [t])[..|tasks|] == tasks;
  }

  /**
   * As written, every populated assignee is filed under "[object Object]": such a task adds
   * nothing to the counters of any member id but that string.
   */
  lemma PopulatedCountsForNoMember(tasks: seq<Task>, t: Task, key: string)
    requires t.assignedTo.Populated? && key != "[object Object]"
    ensures Tally(tasks + [t], key) == Tally(tasks, key)
  {
    assert (tasks + [t])[..|tasks|] == tasks;
  }

  /** `m` has an entry for exactly the keys some task of `seen` is filed under, each holding its tally. */
  ghost predicate CountsOf(m: map<string, TaskStats>, seen: seq<Task>) {
    (forall k :: k in m <==> Tally(seen, k).total > 0) &&
    (forall k :: k in m ==> m[k] == Tally(seen, k))
  }

  /** `memberTaskStats[m._id] || { total: 0, completed: 0, pending: 0 }` */
  function DisplayedStats(stats: map<string, TaskStats>, memberId: string): TaskStats {
    if memberId in stats then stats[memberId] else NoStats
  }

  /** The counters under `key` after `task` is counted. */
  function Counted(before: TaskStats, task: Task, key: string): TaskStats {
    if StatsKey(task.assignedTo) != Some(key) then before
    else if task.status == Done then before.(total := before.total + 1, completed := before.completed + 1)
    else before.(total := before.total + 1, pending := before.pending + 1)
  }

  /** One counted task: the counters of its key, and only those, move on by that task. */
  lemma TallySnoc(seen: seq<Task>, task: Task)
    ensures forall k :: Tally(seen + [task], k) == Counted(Tally(seen, k), task, k)
  {
    assert (seen + [task])[..|seen|] == seen;
  }

  /** The invariant of the counting loop survives one more task. */
  lemma CountStep(m: map<string, TaskStats>, before: seq<Task>, task: Task)
    requires CountsOf(m, before)
    ensures StatsKey(task.assignedTo).None? ==> CountsOf(m, before + [task])
    ensures StatsKey(task.assignedTo).Some? ==>
      var k := StatsKey(task.assignedTo).value;
      CountsOf(m[k := Counted(DisplayedStats(m, k), task, k)], before + [task])
  {
    var after := before + [task];
    TallySnoc(before, task);
    var key := StatsKey(task.assignedTo);
    if key.Some? {
      var k := key.value;
      var m' := m[k := Counted(DisplayedStats(m, k), task, k)];
      forall k' | k' in m'
        ensures m'[k'] == Tally(after, k')
      {
        if k' != k {
          assert m'[k'] == m[k'];
        }
      }
    }
  }

  /**
   * The `tasks.forEach` callback run over one project's tasks: a falsy `assignedTo` is
   * skipped, a new key starts at zero, and each task adds one to total and one to
   * completed when done, to pending otherwise.
   */
  method CountTasks(statsMap: map<string, TaskStats>, ghost seen: seq<Task>, tasks: seq<Task>)
    returns (counted: map<string, TaskStats>)
    requires CountsOf(statsMap, seen)
    ensures CountsOf(counted, seen + tasks)
  {
    counted := statsMap;
    var j := 0;
    assert seen + tasks[..0] == seen;
    while j < |tasks|
      invariant 0 <= j <= |tasks|
      invariant CountsOf(counted, seen + tasks[..j])
    {
      var task := tasks[j];
      ghost var before := seen + tasks[..j];
      assert seen + tasks[..j + 1] == before + [task];
      CountStep(counted, before, task);
      var key := StatsKey(task.assignedTo);
      if key.Some? {
        var k := key.value;
        ghost var prior := counted;
        if k !in counted {
          counted := counted[k := NoStats];
        }
        var entry := counted[k];
        assert entry == DisplayedStats(prior, k);
        entry := entry.(total := entry.total + 1);
        if task.status == Done {
          entry := entry.(completed := entry.completed + 1);
        } else {
          entry := entry.(pending := entry.pending + 1);
        }
        assert entry == Counted(DisplayedStats(prior, k), task, k);
        counted := counted[k := entry];
        assert counted == prior[k := Counted(DisplayedStats(prior, k), task, k)];
      }
      j := j + 1;
    }
    assert tasks[..|tasks|] == tasks;
  }

  /**
   * `fetchTaskStats`: the replies to the project-list request and, in project order, to
   * each project's task request. Without a team id nothing happens; a failed request
   * ends the loop in the `catch`, which leaves the shown statistics as they were.
   */
  method FetchTaskStats(teamId: Option<string>, projectsReply: Response<Option<seq<string>>>,
                        taskReplies: seq<Response<Option<seq<Task>>>>, shown: map<string, TaskStats>)
    returns (stats: map<string, TaskStats>)
    requires projectsReply.Ok? ==> |taskReplies| == |OrEmpty(projectsReply.value)|
    ensures !TruthyOpt(teamId) || projectsReply.Err? ==> stats == shown
    ensures Err in taskReplies ==> stats == shown
    ensures TruthyOpt(teamId) && projectsReply.Ok? && Err !in taskReplies ==>
      CountsOf(stats, AllTasks(taskReplies))
  {
    if !TruthyOpt(teamId) || projectsReply.Err? {
      return shown;
    }
    var projects := OrEmpty(projectsReply.value);
    var statsMap: map<string, TaskStats> := map[];
    var i := 0;
    while i < |projects|
      invariant 0 <= i <= |projects|
      invariant Err !in taskReplies[..i]
      invariant CountsOf(statsMap, AllTasks(taskReplies[..i]))
    {
      var reply := taskReplies[i];
      if reply.Err? {
        return shown;
      }
      statsMap := CountTasks(statsMap, AllTasks(taskReplies[..i]), OrEmpty(reply.value));
      assert taskReplies[..i + 1][..i] == taskReplies[..i];
      i := i + 1;
    }
    assert taskReplies[..|projects|] == taskReplies;
    return statsMap;
  }

  /**
   * Every listed member shows their tally, members with no task showing zeros, and the
   * counters always add up: total = completed + pending.
   */
  lemma DisplayedIsTally(stats: map<string, TaskStats>, seen: seq<Task>, memberId: string)
    requires CountsOf(stats, seen)
    ensures DisplayedStats(stats, memberId) == Tally(seen, memberId)
    ensures DisplayedStats(stats, memberId).total ==
            DisplayedStats(stats, memberId).completed + DisplayedStats(stats, memberId).pending
  {
  }

  // ---------------------------------------------------------------- member list

  datatype Member = Member(id: string, name: string, email: string, role: string)

  const NotAdmin: Member -> bool := (m: Member) => m.role != ADMIN

  const IsManager: Member -> bool := (m: Member) => m.role == MANAGER

  /** The members as listed: administrators left out, managers first, otherwise in the order received. */
  function DisplayedMembers(members: seq<Member>): (r: seq<Member>)
    ensures forall m :: m in r <==> m in members && m.role != ADMIN
    ensures multiset(r) == multiset(Seqs.Filter(members, NotAdmin))
    ensures forall i, j :: 0 <= i < j < |r| && r[j].role == MANAGER ==> r[i].role == MANAGER
  {
    var shown := Seqs.Filter(members, NotAdmin);
    var r := Seqs.Partition(shown, IsManager);
    SameElements(r, shown);
    r
  }

  lemma SameElements<T>(a: seq<T>, b: seq<T>)
    requires multiset(a) == multiset(b)
    ensures forall x :: x in a <==> x in b
  {
    forall x
      ensures x in a <==> x in b
    {
      assert x in a <==> x in multiset(a);
      assert x in b <==> x in multiset(b);
    }
  }

  /** The managers, and the other members, each keep the order they were received in. */
  lemma DisplayedKeepsOrder(members: seq<Member>)
    ensures Seqs.Filter(DisplayedMembers(members), IsManager) == Seqs.Filter(Seqs.Filter(members, NotAdmin), IsManager)
    ensures Seqs.Filter(DisplayedMembers(members), Seqs.Not(IsManager))
         == Seqs.Filter(Seqs.Filter(members, NotAdmin), Seqs.Not(IsManager))
  {
    Seqs.PartitionIsStable(Seqs.Filter(members, NotAdmin), IsManager);
  }

  // ---------------------------------------------------------------- invite selection

  /**
   * The dialog's `selectedUsers` record, as its entries in key-insertion order, and
   * `selectedManager`.
   */
  datatype Selection = Selection(entries: seq<(string, bool)>, manager: Option<string>)

  const NoSelection := Selection([], None)

  predicate UniqueKeys(entries: seq<(string, bool)>) {
    forall i, j :: 0 <= i < j < |entries| ==> entries[i].0 != entries[j].0
  }

  /** `selectedUsers[id]`, `None` for a key never set. */
  function Lookup(entries: seq<(string, bool)>, id: string): (r: Option<bool>)
    ensures r.None? <==> forall i :: 0 <= i < |entries| ==> entries[i].0 != id
    ensures r.Some? ==> exists i :: 0 <= i < |entries| && entries[i] == (id, r.value)
  {
    if entries == [] then None
    else if entries[0].0 == id then Some(entries[0].1)
    else
      var r := Lookup(entries[1..], id);
      assert forall i :: 0 < i < |entries| ==> entries[i] == entries[1..][i - 1];
      r
  }

  /** `!!selectedUsers[id]`: a key never set reads as not selected. */
  predicate Selected(entries: seq<(string, bool)>, id: string) {
    Lookup(entries, id) == Some(true)
  }

  /** `{ ...prev, [id]: v }`: an existing key keeps its place, a new one goes last. */
  function Put(entries: seq<(string, bool)>, id: string, v: bool): (r: seq<(string, bool)>)
    ensures |entries| <= |r| <= |entries| + 1
    ensures forall i :: 0 <= i < |entries| ==> r[i].0 == entries[i].0
    ensures forall i :: |entries| <= i < |r| ==> r[i] == (id, v)
    decreases |entries|
  {
    if entries == [] then [(id, v)]
    else if entries[0].0 == id then [(id, v)] + entries[1..]
    else [entries[0]] + Put(entries[1..], id, v)
  }

  /** After the update the key reads `v`. */
  lemma {:induction false} PutFinds(entries: seq<(string, bool)>, id: string, v: bool)
    ensures Lookup(Put(entries, id, v), id) == Some(v)
    decreases |entries|
  {
    if entries != [] && entries[0].0 != id {
      PutFinds(entries[1..], id, v);
      assert Put(entries, id, v)[1..] == Put(entries[1..], id, v);
    }
  }

  /** After the update every other key reads as before. */
  lemma {:induction false} PutKeepsOther(entries: seq<(string, bool)>, id: string, v: bool, other: string)
    requires other != id
    ensures Lookup(Put(entries, id, v), other) == Lookup(entries, other)
    decreases |entries|
  {
    var r := Put(entries, id, v);
    if entries == [] {
      assert r[1..] == [];
    } else if entries[0].0 == id {
      assert r[1..] == entries[1..];
    } else {
      PutKeepsOther(entries[1..], id, v, other);
      assert r[1..] == Put(entries[1..], id, v);
    }
  }

  /** Dropping the first entry keeps keys distinct, and its key appears nowhere else. */
  lemma UniqueKeysTail(entries: seq<(string, bool)>)
    requires entries != [] && UniqueKeys(entries)
    ensures UniqueKeys(entries[1..])
    ensures forall j :: 0 <= j < |entries[1..]| ==> entries[1..][j].0 != entries[0].0
  {
    var rest := entries[1..];
    forall i, j | 0 <= i < j < |rest|
      ensures rest[i].0 != rest[j].0
    {
      assert rest[i] == entries[i + 1] && rest[j] == entries[j + 1];
    }
    forall j | 0 <= j < |rest|
      ensures rest[j].0 != entries[0].0
    {
      assert rest[j] == entries[j + 1];
    }
  }

  /** The update keeps keys distinct. */
  lemma {:induction false} PutKeepsKeysUnique(entries: seq<(string, bool)>, id: string, v: bool)
    requires UniqueKeys(entries)
    ensures UniqueKeys(Put(entries, id, v))
    decreases |entries|
  {
    var r := Put(entries, id, v);
    if entries != [] {
      var rest := entries[1..];
      UniqueKeysTail(entries);
      if entries[0].0 == id {
        forall i, j | 0 <= i < j < |r|
          ensures r[i].0 != r[j].0
        {
          assert r[i].0 == entries[i].0 && r[j].0 == entries[j].0;
        }
      } else {
        PutKeepsKeysUnique(rest, id, v);
        var tail := Put(rest, id, v);
        assert r == [entries[0]] + tail;
        forall j | 0 <= j < |tail|
          ensures entries[0].0 != tail[j].0
        {
          if j < |rest| {
            assert tail[j].0 == rest[j].0;
          }
        }
        forall i, j | 0 <= i < j < |r|
          ensures r[i].0 != r[j].0
        {
          if i > 0 {
            assert r[i] == tail[i - 1] && r[j] == tail[j - 1];
          } else {
            assert r[j] == tail[j - 1];
          }
        }
      }
    }
  }

  /** The one invariant the two toggles keep: the chosen manager is among the selected users. */
  predicate Consistent(s: Selection) {
    UniqueKeys(s.entries) && (s.manager.Some? ==> Selected(s.entries, s.manager.value))
  }

  /**
   * `toggleUserSelection`: flips the user's flag, and clears the manager choice when that
   * user was the manager and was selected before the flip.
   */
  function ToggleUser(s: Selection, id: string): (r: Selection)
    ensures Selected(r.entries, id) == !Selected(s.entries, id)
    ensures forall other :: other != id ==> Lookup(r.entries, other) == Lookup(s.entries, other)
    ensures r.manager == if s.manager == Some(id) && Selected(s.entries, id) then None else s.manager
    ensures Consistent(s) ==> Consistent(r)
  {
    var flipped := Put(s.entries, id, !Selected(s.entries, id));
    PutFinds(s.entries, id, !Selected(s.entries, id));
    assert forall other :: other != id ==> Lookup(flipped, other) == Lookup(s.entries, other) by {
      forall other | other != id
        ensures Lookup(flipped, other) == Lookup(s.entries, other)
      {
        PutKeepsOther(s.entries, id, !Selected(s.entries, id), other);
      }
    }
    assert UniqueKeys(s.entries) ==> UniqueKeys(flipped) by {
      if UniqueKeys(s.entries) {
        PutKeepsKeysUnique(s.entries, id, !Selected(s.entries, id));
      }
    }
    Selection(flipped, if s.manager == Some(id) && Selected(s.entries, id) then None else s.manager)
  }

  /**
   * `toggleManagerSelection`: clears the choice when the user already is the manager;
   * otherwise makes them the only manager and selects them.
   */
  function ToggleManager(s: Selection, id: string): (r: Selection)
    ensures s.manager == Some(id) ==> r == s.(manager := None)
    ensures s.manager != Some(id) ==> r.manager == Some(id) && Selected(r.entries, id)
    ensures s.manager != Some(id) ==> forall other :: other != id ==> Lookup(r.entries, other) == Lookup(s.entries, other)
    ensures Consistent(s) ==> Consistent(r)
  {
    if s.manager == Some(id) then s.(manager := None)
    else
      var entries := Put(s.entries, id, true);
      PutFinds(s.entries, id, true);
      assert forall other :: other != id ==> Lookup(entries, other) == Lookup(s.entries, other) by {
        forall other | other != id
          ensures Lookup(entries, other) == Lookup(s.entries, other)
        {
          PutKeepsOther(s.entries, id, true, other);
        }
      }
      assert UniqueKeys(s.entries) ==> UniqueKeys(entries) by {
        if UniqueKeys(s.entries) {
          PutKeepsKeysUnique(s.entries, id, true);
        }
      }
      Selection(entries, Some(id))
  }

  /** A click in the dialog: on a user's checkbox or on their manager toggle. */
  datatype Click = UserClick(id: string) | ManagerClick(id: string)

  function AfterClicks(s: Selection, clicks: seq<Click>): Selection
    decreases |clicks|
  {
    if clicks == [] then s
    else
      var next := match clicks[0] case UserClick(id) => ToggleUser(s, id) case ManagerClick(id) => ToggleManager(s, id);
      AfterClicks(next, clicks[1..])
  }

  /** From any consistent dialog, the empty one included, whatever the clicks, the manager (if any) stays a selected user. */
  lemma {:induction false} ClicksKeepConsistent(s: Selection, clicks: seq<Click>)
    requires Consistent(s)
    ensures Consistent(AfterClicks(s, clicks))
    decreases |clicks|
  {
    if clicks != [] {
      var next := match clicks[0] case UserClick(id) => ToggleUser(s, id) case ManagerClick(id) => ToggleManager(s, id);
      ClicksKeepConsistent(next, clicks[1..]);
    }
  }

  // ---------------------------------------------------------------- inviting

  /** An entry of `availableUsers`: its `_id` and `email`. */
  datatype AvailableUser = AvailableUser(id: string, email: string)

  /** The body of one invite request. */
  datatype Invite = Invite(email: string, role: string)

  /** `availableUsers.find(u => u._id === id)` */
  function FindUser(available: seq<AvailableUser>, id: string): (r: Option<AvailableUser>)
    ensures r.Some? ==> r.value.id == id
  {
    if available == [] then None
    else if available[0].id == id then Some(available[0])
    else FindUser(available[1..], id)
  }

  /** A found user is available and has the id; nothing is found exactly when no available user has it. */
  lemma {:induction false} FindUserSpec(available: seq<AvailableUser>, id: string)
    ensures FindUser(available, id).Some? ==>
      FindUser(available, id).value in available && FindUser(available, id).value.id == id
    ensures FindUser(available, id).None? <==> forall i :: 0 <= i < |available| ==> available[i].id != id
  {
    if available != [] && available[0].id != id {
      FindUserSpec(available[1..], id);
      assert forall i :: 0 < i < |available| ==> available[i] == available[1..][i - 1];
    }
  }

  /** The invite one entry leads to: a selected user who is found, as MANAGER if chosen as manager. */
  function InviteFor(entry: (string, bool), manager: Option<string>, available: seq<AvailableUser>): (r: Option<Invite>)
    ensures r.Some? <==> entry.1 && FindUser(available, entry.0).Some?
    ensures r.Some? ==> r.value.email == FindUser(available, entry.0).value.email
    ensures r.Some? ==> (r.value.role == MANAGER <==> manager == Some(entry.0))
    ensures r.Some? ==> r.value.role == MANAGER || r.value.role == MEMBER
  {
    if !entry.1 then None
    else match FindUser(available, entry.0)
      case None => None
      case Some(u) => Some(Invite(u.email, if manager == Some(entry.0) then MANAGER else MEMBER))
  }

  /** The invites the loop over the keys sends, in key order. */
  function Planned(entries: seq<(string, bool)>, manager: Option<string>, available: seq<AvailableUser>): (r: seq<Invite>)
    ensures |r| <= |entries|
    decreases |entries|
  {
    if entries == [] then []
    else
      var one := InviteFor(entries[|entries| - 1], manager, available);
      Planned(entries[..|entries| - 1], manager, available) + (if one.Some? then [one.value] else [])
  }

  /** Every invite sent comes from a selected key whose user was found. */
  lemma {:induction false} PlannedSound(entries: seq<(string, bool)>, manager: Option<string>, available: seq<AvailableUser>, inv: Invite)
    requires inv in Planned(entries, manager, available)
    ensures exists k :: 0 <= k < |entries| && InviteFor(entries[k], manager, available) == Some(inv)
    decreases |entries|
  {
    var init, last := entries[..|entries| - 1], entries[|entries| - 1];
    if inv in Planned(init, manager, available) {
      PlannedSound(init, manager, available, inv);
      var k :| 0 <= k < |init| && InviteFor(init[k], manager, available) == Some(inv);
      assert init[k] == entries[k];
    } else {
      assert InviteFor(entries[|entries| - 1], manager, available) == Some(inv);
    }
  }

  /** Every selected key whose user is found gets its invite. */
  lemma {:induction false} PlannedComplete(entries: seq<(string, bool)>, manager: Option<string>, available: seq<AvailableUser>, k: nat)
    requires k < |entries| && InviteFor(entries[k], manager, available).Some?
    ensures InviteFor(entries[k], manager, available).value in Planned(entries, manager, available)
    decreases |entries|
  {
    var init := entries[..|entries| - 1];
    if k < |init| {
      PlannedComplete(init, manager, available, k);
      assert init[k] == entries[k];
    }
  }

  /** Each invite's role: MANAGER only for the chosen manager's own selected key, MEMBER for everyone else. */
  lemma InviteRoles(entries: seq<(string, bool)>, manager: Option<string>, available: seq<AvailableUser>, inv: Invite)
    requires inv in Planned(entries, manager, available)
    ensures inv.role == MANAGER || inv.role == MEMBER
    ensures inv.role == MANAGER ==>
      manager.Some? && exists k :: 0 <= k < |entries| && entries[k] == (manager.value, true)
  {
    PlannedSound(entries, manager, available, inv);
  }

  function IsManagerInvite(inv: Invite): bool {
    inv.role == MANAGER
  }

  /** With distinct keys, at most one user is invited as MANAGER. */
  lemma {:induction false} AtMostOneManagerInvite(entries: seq<(string, bool)>, manager: Option<string>, available: seq<AvailableUser>)
    requires UniqueKeys(entries)
    ensures |Seqs.Filter(Planned(entries, manager, available), IsManagerInvite)| <= 1
    decreases |entries|
  {
    if entries != [] {
      var init, last := entries[..|entries| - 1], entries[|entries| - 1];
      var earlier := Planned(init, manager, available);
      var one := InviteFor(last, manager, available);
      var tail := if one.Some? then [one.value] else [];
      AtMostOneManagerInvite(init, manager, available);
      Seqs.FilterConcat(earlier, tail, IsManagerInvite);
      assert |Seqs.Filter(tail, IsManagerInvite)| <= 1;
      if one.Some? && one.value.role == MANAGER {
        assert Seqs.Filter(earlier, IsManagerInvite) == [] by {
          if Seqs.Filter(earlier, IsManagerInvite) != [] {
            var inv := Seqs.Filter(earlier, IsManagerInvite)[0];
            assert inv in earlier && inv.role == MANAGER;
            PlannedSound(init, manager, available, inv);
          }
        }
      } else {
        assert Seqs.Filter(tail, IsManagerInvite) == [] by {
          if one.Some? {
            assert tail[1..] == [];
            assert Seqs.Filter(tail, IsManagerInvite) == [] + Seqs.Filter([], IsManagerInvite);
          }
        }
      }
    }
  }

  /** One more key adds its invite, if any, at the end of those sent so far. */
  lemma PlannedStep(entries: seq<(string, bool)>, manager: Option<string>, available: seq<AvailableUser>, i: nat, sent: seq<Invite>)
    requires i < |entries| && sent == Planned(entries[..i], manager, available)
    ensures Planned(entries[..i + 1], manager, available) ==
      match InviteFor(entries[i], manager, available)
      case None => sent
      case Some(inv) => sent + [inv]
  {
    assert entries[..i + 1][..i] == entries[..i];
  }

  /** The invites sent so far are always the start of the full plan. */
  lemma {:induction false} PlannedPrefix(entries: seq<(string, bool)>, manager: Option<string>, available: seq<AvailableUser>, i: nat)
    requires i <= |entries|
    ensures Planned(entries[..i], manager, available) <= Planned(entries, manager, available)
    decreases |entries| - i
  {
    if i < |entries| {
      PlannedPrefix(entries, manager, available, i + 1);
      assert entries[..i + 1][..i] == entries[..i];
    } else {
      assert entries[..i] == entries;
    }
  }

  /**
   * The loop of `handleInviteExistingUsers`: one invite request per selected key whose user
   * is found, in key order, stopping at the request numbered `failsAt` when it fails.
   * `failed` says whether the loop ended in the `catch`.
   */
  method SendInvites(entries: seq<(string, bool)>, manager: Option<string>, available: seq<AvailableUser>, failsAt: Option<nat>)
    returns (sent: seq<Invite>, failed: bool)
    ensures failed ==> failsAt.Some? && failsAt.value == |sent| - 1 && sent <= Planned(entries, manager, available)
    ensures !failed ==> sent == Planned(entries, manager, available) && (failsAt.Some? ==> failsAt.value >= |sent|)
  {
    sent := [];
    var i := 0;
    assert entries[..0] == [];
    while i < |entries|
      invariant 0 <= i <= |entries|
      invariant sent == Planned(entries[..i], manager, available)
      invariant failsAt.Some? ==> failsAt.value >= |sent|
    {
      var invite := InviteFor(entries[i], manager, available);
      PlannedStep(entries, manager, available, i, sent);
      if invite.Some? {
        sent := sent + [invite.value];
        if failsAt.Some? && failsAt.value == |sent| - 1 {
          PlannedPrefix(entries, manager, available, i + 1);
          return sent, true;
        }
      }
      i := i + 1;
    }
    assert entries[..|entries|] == entries;
    return sent, false;
  }

  /**
   * `handleInviteExistingUsers`. `failsAt` is the position, among the invite requests, of
   * the first one that fails, if any: the loop stops there and the `catch` keeps the
   * selection; when every request succeeds the selection is reset. With no team id, or
   * no key in `selectedUsers` at all, nothing is sent.
   */
  method InviteExistingUsers(teamId: Option<string>, s: Selection, available: seq<AvailableUser>, failsAt: Option<nat>)
    returns (sent: seq<Invite>, after: Selection)
    ensures !TruthyOpt(teamId) || s.entries == [] ==> sent == [] && after == s
    ensures TruthyOpt(teamId) && s.entries != [] ==>
      var plan := Planned(s.entries, s.manager, available);
      if failsAt.Some? && failsAt.value < |plan| then sent == plan[..failsAt.value + 1] && after == s
      else sent == plan && after == NoSelection
  {
    if !TruthyOpt(teamId) || |s.entries| == 0 {
      return [], s;
    }
    var failed;
    sent, failed := SendInvites(s.entries, s.manager, available, failsAt);
    if failed {
      return sent, s;
    }
    return sent, NoSelection;
  }
}
